=== FILE: README.md ===
# IMAP mailbox synchronisation, modelled in Dafny

This project models `Imap::Sync` from `lib/imap/sync.rb`. That is one
synchronisation pass between a remote IMAP mailbox and the local mirror
records: every incoming-email record of the site. A pass works in these steps:

- It checks the mailbox's UIDVALIDITY epoch. A changed epoch resets the
  cursor `last_seen_uid` to 0.
- It splits the server's UIDs into old ones (at or below the cursor) and new
  ones (above it).
- It refreshes the archived state and tags of a random sample of at most
  500 old messages.
- It ingests the lowest 51 new messages. The cursor moves to each message
  that ingestion accepts.
- It persists the epoch and the cursor.
- Unless the site is read-only, it pushes locally changed topics back as
  `store` calls on the message's flags and labels. A record is pushed when
  tagging and staff PM tagging are on, it belongs to a first post, it is
  marked for sync, and the server has a message with its UID number.

The model is pure and functional, in five modules:

- `Types` holds the entities: `Email`, `Topic`, `Mirror` (an incoming-email
  record with its first-post topic), `Mailbox`, `Server`, `Settings`,
  `Provider` and `StoreCall`.
- `Seqs` holds order-keeping filtering, first-occurrence deduplication
  (Ruby's `uniq`) and first-index lookup.
- `Mapper` reconciles the archived state, computes tags from flags and
  labels, and derives the flags and labels to push.
- `Uids` holds the old/new split, the sample of old UIDs and the batch of
  new ones.
- `Sync` holds `update_topic`, the two loops over fetched messages,
  `update_email`, the outbound loop and `process`.

Effects are modelled as follows:

- The provider's translation helpers (`to_tag`, `tag_to_flag`,
  `tag_to_label`) are parameters.
- Message ingestion (`Email::Receiver`) is a parameter that maps a message
  and an epoch to either an ingested mirror or `ProcessingError`.
- The randomness behind `sample` is a parameter `draws`.
- The server is a value. A `store` call replaces the field of the message
  with the call's new values.

Three behaviours of the code are worth stating plainly:

- **The cursor moves past a failed message when a later one succeeds.**
  `mailbox.last_seen_uid = email["UID"]` runs after every successful
  message, including one that follows a failure. So the cursor ends on the
  last success in batch order (`CursorIsLastSuccess`, `ProcessCursor`). A
  failed message below that point is "old" on the next pass. From then on
  it is only refreshed and, while the epoch stays the same, never ingested
  again (`FailedMessageIsPassedOver`).
- **A changed epoch makes every UID new.** The comment at
  `lib/imap/sync.rb:34-37` says that messages may be "considered newly
  arrived" after UIDVALIDITY changes. With `last_seen_uid == 0` the old list
  is empty and every UID is new (`PartitionUids`, `PlanPass`).
- **A push is matched on the UID number alone.** The records walked at
  `lib/imap/sync.rb:96` are all marked records of the site, and the fetch at
  `:142` asks for `imap_uid` only. So a marked first-post record filed under
  an older epoch, or under another mailbox, is pushed to whichever message of
  this mailbox now has the same UID number, and its mark is cleared. The
  model does the same: `Pushes` compares only `key.uid` with the server's
  UIDs.

## Model

| member | source | states |
|---|---|---|
| Sync.PlanPass | lib/imap/sync.rb:29-51 | A changed UIDVALIDITY sets the cursor to 0; otherwise the stored cursor is kept. The sample holds exactly `min(500, n)` of the `n` old UIDs, each taken from a distinct position. The batch is the first `min(51, m)` of the `m` new UIDs, in order; in a well-formed mailbox these are the lowest new UIDs. A cursor of 0 gives no sample, and the batch is then the first `min(51, n)` server UIDs. Every sampled UID is on the server at or below the cursor. Every batched UID is on the server and above a non-zero cursor. |
| Sync.CheckedLastSeen | lib/imap/sync.rb:29-32 | The cursor after the epoch check is either the stored cursor or 0. It stays the stored cursor exactly when the epoch is unchanged or the cursor was 0 already. |
| Uids.PartitionUids | lib/imap/sync.rb:39-45 | With a cursor of 0, nothing is old and every UID is new. Otherwise a UID is old exactly when it is at or below the cursor and new exactly when it is above it. Every UID is in exactly one of the two lists. |
| Uids.AllUids | lib/imap/sync.rb:41 | `uids` with no range lists one UID per server message, in mailbox order. |
| Uids.UidsTo | lib/imap/sync.rb:43 | `uids(to: n)` holds exactly the UIDs at or below `n`. |
| Uids.UidsFrom | lib/imap/sync.rb:44 | `uids(from: n)` holds exactly the UIDs at or above `n`. |
| Uids.PartitionIsCut | lib/imap/sync.rb:39-45 | On an ascending UID list, the old list followed by the new list is the list itself, and every old UID is below every new one. |
| Uids.SplitAscending | lib/imap/sync.rb:43-44 | `uids(to: n)` followed by `uids(from: n + 1)` gives back an ascending list unchanged. |
| Uids.NoneFrom | lib/imap/sync.rb:44 | `uids(from: n)` is empty when every UID is below `n`. |
| Uids.Sample | lib/imap/sync.rb:50 | `sample(k)` returns `min(k, n)` elements, and as a multiset they are contained in the input. |
| Uids.SampleWithin | lib/imap/sync.rb:50 | Every sampled UID is one of the input's UIDs. |
| Uids.SampleDistinct | lib/imap/sync.rb:50 | Sampling from distinct UIDs gives distinct UIDs, so no UID is drawn twice. |
| Uids.SampleReachesEvery | lib/imap/sync.rb:50 | Every selection of `min(k, n)` elements from distinct positions, in any order, is produced by some random draws. |
| Uids.OldSample | lib/imap/sync.rb:39-50 | The old UIDs a pass refreshes: exactly `min(500, n)` of the `n` UIDs at or below the cursor, from distinct positions, and none when the cursor is 0. Each is a server UID at or below the cursor. |
| Uids.NewBatch | lib/imap/sync.rb:39-51 | The new UIDs a pass ingests: the first `min(51, m)` of the `m` new UIDs, in order. On an ascending UID list every batched UID is below every new UID left for later. When the cursor is 0 they are the first `min(51, n)` UIDs; otherwise each is a server UID above the cursor. |
| Uids.FirstBatch | lib/imap/sync.rb:51 | `new_uids[0..50]` keeps the first `min(51, n)` UIDs, in order. |
| Uids.BatchTakesLowest | lib/imap/sync.rb:51 | On an ascending list, every batched UID is below every UID left for a later pass. |
| Sync.Fetch | lib/imap/sync.rb:55 | The fetched messages are exactly the server's messages whose UID was asked for. |
| Sync.Find | lib/imap/sync.rb:57-60 | `find_by(uid_validity, uid)` returns the first mirror with that key, or reports that no mirror has it. |
| Sync.RefreshOne | lib/imap/sync.rb:57-62 | Refreshing for one old message keeps the number of mirrors and every key, post and sync mark. Only an eligible mirror whose key is the message's epoch and UID can change. |
| Sync.UpdateTopic | lib/imap/sync.rb:103-110 | A missing mirror, a reply's mirror or a mirror with a pending push is left as it is. Otherwise the topic's archived state and tags are those the message dictates. Key, post and sync mark never change. |
| Sync.UpdateTopicIdempotent | lib/imap/sync.rb:103-110 | Applying the same message twice is the same as applying it once. |
| Mapper.ReconcileArchived | lib/imap/sync.rb:114-122 | The topic is archived exactly when neither `\Inbox` nor `INBOX` is among the labels. Tags are untouched. The topic changes exactly when its archived state disagreed with the message. |
| Mapper.IsEmailArchived | lib/imap/sync.rb:116 | A message counts as archived exactly when none of its labels is `\Inbox` or `INBOX`. |
| Mapper.ReconcileArchivedIdempotent | lib/imap/sync.rb:114-122 | A second reconciliation against the same labels changes nothing. |
| Mapper.InboundTags | lib/imap/sync.rb:125-131 | The tags are distinct and non-blank. A string is a tag exactly when it is the non-blank translation of the mailbox name, a flag or a label. |
| Mapper.InboundTagsOrder | lib/imap/sync.rb:126-131 | Tags are listed in the order in which their first translation appears among the mailbox name, the flags and the labels. |
| Mapper.NonBlankImages | lib/imap/sync.rb:151-152 | `map(f).reject(&:blank?)` keeps exactly the non-blank images, and nothing blank. |
| Mapper.IsBlank | lib/imap/sync.rb:130 | A string is blank exactly when every character in it is white space; the empty string is blank. |
| Seqs.Uniq | lib/imap/sync.rb:131 | `uniq` gives a duplicate-free list with the same members, no longer than its input. |
| Seqs.UniqFirstOccurrenceOrder | lib/imap/sync.rb:131 | `uniq` lists values in the order of their first occurrence. |
| Seqs.UniqOfDistinct | lib/imap/sync.rb:131 | `uniq` leaves a duplicate-free list unchanged. |
| Mapper.FilterKeepsFirstOccurrenceOrder | lib/imap/sync.rb:130 | Rejecting blanks keeps the relative first-occurrence order of the tags that remain. |
| Sync.RefreshOld | lib/imap/sync.rb:54-64 | The old-message loop keeps the number of mirrors and every mirror's key, post and sync mark. It leaves alone every ineligible mirror and every mirror that no fetched message names. |
| Sync.RefreshOldAppliesMessage | lib/imap/sync.rb:54-64 | When mirror keys and message UIDs are unique, an eligible mirror named by a sampled message ends with that message's archived state and tags. |
| Sync.Upsert | lib/imap/sync.rb:78-80 | The ingested mirror is in the store afterwards. At most one record is added. Mirrors with other keys are untouched. Every existing position keeps its key. |
| Sync.IngestNew | lib/imap/sync.rb:68-86 | The new-message loop leaves the cursor where it was or moves it to the UID of a message that ingestion accepted. The store grows by at most one mirror per message. Every existing position keeps its key. |
| Sync.IngestNewRecords | lib/imap/sync.rb:68-86 | Every accepted message's mirror, after `update_topic`, is in the store afterwards, unless a later accepted message was filed under the same key. Every earlier mirror whose key no accepted message has stays in place, unchanged. |
| Sync.LastIngested | lib/imap/sync.rb:82 | The reference definition of the cursor's destination. When it names a UID, that UID belongs to an accepted message. It names none exactly when every message failed. |
| Sync.LastIngestedIsLast | lib/imap/sync.rb:82 | When a UID is named, it is the UID of an accepted message after which every message of the batch failed. |
| Sync.CursorIsLastSuccess | lib/imap/sync.rb:68-86 | After the loop, the cursor is the UID of the last accepted message in batch order, or the old cursor when none was accepted. |
| Sync.CursorSkipsFailures | lib/imap/sync.rb:71-84 | When the messages' UIDs are distinct and the starting cursor is none of them, the loop's cursor is never the UID of a message whose ingestion failed. |
| Sync.ProcessCursor | lib/imap/sync.rb:68-89 | The persisted cursor is the UID of the last accepted new message, or the post-epoch-check cursor when none was accepted. |
| Sync.Pull | lib/imap/sync.rb:27-89 | The server-to-local half of a pass does not shrink the store. Every existing mirror keeps its position and key. Its cursor is either the one the epoch check left or the UID of a server message that ingestion accepted. |
| Sync.CursorMonotonic | lib/imap/sync.rb:29-32 | Within one epoch, a pass never moves the cursor back. |
| Sync.CursorNeverOnFailure | lib/imap/sync.rb:68-89 | In a well-formed mailbox, the persisted cursor is never the UID of a new message of this pass that failed ingestion. |
| Sync.BatchCursorNotFailed | lib/imap/sync.rb:68-86 | In a well-formed mailbox, after ingesting a batch of UIDs above the starting cursor, the cursor is not the UID of a batch message that failed. |
| Sync.UidIdentifies | lib/imap/sync.rb:59 | In a well-formed mailbox, two messages with the same UID are the same message. |
| Sync.CursorOnSoleAccepted | lib/imap/sync.rb:82-89 | When the only message ingestion accepts is in the new batch, the pass persists the mailbox with the server's epoch and that message's UID as its cursor. |
| Sync.FailedMessageIsPassedOver | lib/imap/sync.rb:39-86 | With the cursor at 4, UIDs 5 and 6 new, and 5 rejected: the pass persists cursor 6, and the next pass does not put 5 in its new batch. |
| Sync.ApplyStore | lib/imap/sync.rb:154-155 | A `store` leaves the stored field of the message with the call's UID holding the new values. Every other field and every other message stays as it was. |
| Sync.UpdateEmail | lib/imap/sync.rb:139-156 | Nothing happens when tagging is off, the mirror is a reply, there is nothing pending, or the message is gone. Otherwise the sync mark is cleared and two `store` calls go out: FLAGS, then LABELS. Their old values are the freshly fetched ones and their new values are the derived ones, and the server then holds those values. |
| Sync.FetchOne | lib/imap/sync.rb:142 | The fetch in `update_email` finds a message exactly when the server holds the mirror's UID. |
| Sync.UpdateEmailPushes | lib/imap/sync.rb:139-155 | `update_email` clears the sync mark exactly when tagging is on, the mirror is a first post's, it is marked, and its UID is on the server. It then requests the derived flags and then the derived labels. It keeps the server's UIDs. |
| Mapper.OutboundFlags | lib/imap/sync.rb:150-151 | The flags to push are exactly the non-blank flag translations of the topic's tags. |
| Mapper.OutboundLabels | lib/imap/sync.rb:150-153 | The labels to push are the non-blank label translations of the tags. `\Inbox` is appended exactly when the topic is not archived. |
| Mapper.PushedLabelsKeepArchiveState | lib/imap/sync.rb:116-153 | When no tag translates to an inbox label, the pushed labels read back as the topic's own archived state, and reconciliation leaves the topic alone. |
| Mapper.PushedTagsReadBack | lib/imap/sync.rb:125-153 | When the provider's translations invert each other, the tags read back from the pushed flags and labels are the topic's own tag set. |
| Sync.PushThenPullKeepsTopic | lib/imap/sync.rb:103-156 | For a first-post mirror with a pending change whose UID number is on the server, in any epoch, the push issues its `store` calls. Pulling the stored message back then reproduces the topic's archived state and tag set, keeps the mirror's key and leaves it unmarked. This holds when the provider's translations invert each other. |
| Sync.PushLocal | lib/imap/sync.rb:94-98 | The outbound loop changes at most each mirror's sync mark. With tagging or staff PM tagging off, it does nothing. |
| Sync.PushLocalPushes | lib/imap/sync.rb:94-98 | The outbound loop clears the sync mark of exactly the mirrors that `update_email` pushes, and leaves every other mirror as it was. Its requests are, in store order, each such mirror's flags and then its labels. It keeps the server's UIDs. |
| Sync.PushedCallsArePending | lib/imap/sync.rb:96-155 | Every `store` the loop issues is for a first-post mirror with a pending change, and it asks for no blank value. |
| Sync.NothingPendingPushesNothing | lib/imap/sync.rb:96-141 | With no mirror marked for sync, the outbound loop changes nothing and issues no `store`. |
| Sync.Process | lib/imap/sync.rb:20-101 | The mailbox keeps its name and takes the server's epoch. Read-only mode writes nothing to the server and keeps the store exactly as the server-to-local half left it, sync marks included. The store does not shrink, and every existing mirror keeps its position and key. |
| Sync.PullRecordsIngested | lib/imap/sync.rb:68-86 | After the server-to-local half, every accepted message of the new batch has its mirror, after `update_topic`, in the store. The exception is a message followed in the batch by another accepted under the same key. |
| Sync.PullRefreshesSample | lib/imap/sync.rb:54-64 | After the server-to-local half, an eligible mirror of a sampled old message carries that message's archived state and tags. This needs unique mirror keys and sample UIDs, and no server message accepted under the mirror's key. |
| Sync.PullKeepsRefreshed | lib/imap/sync.rb:68-86 | A mirror that no server message is accepted under leaves the new-message loop exactly as the old-message refresh left it. |
| Sync.ProcessPushes | lib/imap/sync.rb:89-98 | Unless the site is read-only, a pass pushes exactly the mirrors `update_email` pushes among those the inbound half leaves. It requests their flags and labels in store order, clears their marks, and changes no other mirror. |
| Sync.PassLeavesNothingPending | lib/imap/sync.rb:94-98 | With tagging on and the site not read-only, no first-post mirror whose UID number is on the server, in any epoch, is still marked for sync after a pass. |
| Sync.NothingNewEmptyBatch | lib/imap/sync.rb:39-51 | Within the same epoch, when no UID is above a non-zero cursor (or the mailbox is empty), the new batch is empty. |
| Sync.QuietPass | lib/imap/sync.rb:20-101 | With nothing new and nothing pending, a pass leaves the mailbox record and the server as they were and issues no `store`. |

## Left out

- Connecting, `open_mailbox`, `disconnect!` and the IMAP wire protocol are left out. The provider is represented by its results: the server value, `uids` as the list of server UIDs, and `emails` as `Fetch`. The constructor's connection settings are not modelled.
- Logging and the `Time.now` measurements are left out. They have no effect on state.
- `Email::Receiver` is a parameter. Parsing, post creation and `force_sync` are not part of this model. The only error modelled is `ProcessingError`. Any other exception would abort the pass, and the model does not represent aborts.
- `DiscourseTagging.tag_topic_by_names` is modelled as setting the topic's tags to the computed list. Its permission checks and tag-name cleaning are not part of this model.
- `GroupArchivedMessage.archive!` and `move_to_inbox!` are modelled as the topic's `archived` flag. Their `skip_imap_sync` effect is that the sync mark is not set, and the model does not set it.
- The provider's `store` transmits only the difference between old and new values. The model records each call with both lists and applies its net effect: the field holds the new values.
- Uids.Sample: models which selections `sample` can make (`SampleReachesEvery`), not the uniform probability of each.
- Sync.Process: persisting with `mailbox.update!` is modelled as returning the new record. Database transactions and failures are not modelled.
- Mapper.ReconcileArchived: the topic's `archived` flag stands for "some group has archived it". The reads at `lib/imap/sync.rb:115` and `:153` count `group_archived_messages` across all groups. The writes `archive!` and `move_to_inbox!` at `:119` and `:121` act for this sync's group only. If another group has archived the topic, the code leaves it archived and pushes no `\Inbox`, while the model unarchives it. Group scoping is not part of this model.
- Uids.UidsFrom: `uids(to: n)` and `uids(from: n)` are modelled as exact range filters over the server's UIDs (`UidsTo`, `UidsFrom`). An IMAP search for `UID n:*` also returns the highest UID when every UID is below `n`. The model does not reproduce that. `CursorMonotonic`, `NothingNewEmptyBatch`, `QuietPass` and the "above the cursor" clauses of `NewBatch` and `PlanPass` rely on the exact filter.
- Sync.PushLocalPushes: states the UID, field and new values of every request, in order. It does not state the old values at loop level, because each `update_email` fetches them afresh after the earlier `store` calls. `UpdateEmail` states them for each call.
- Sync.Upsert: how `Email::Receiver` files its record is not part of this model. The model assumes that it replaces the record with the same epoch and UID, or adds one.
- Sync.Pushes: the model does not scope records to a group or a mailbox, and neither do the lookups at `lib/imap/sync.rb:57-60`, `:96` and `:142`. The model reproduces the code's cross-epoch and cross-mailbox push, described above. It does not model which group or mailbox a record came from.
- `IncomingEmail.where(imap_sync: true)` is modelled as a walk over the whole store. The walk skips mirrors without the mark, which gives the same calls in store order.
- The topic is embedded in its first post's mirror. Replies' mirrors carry a topic that is never read.
- `lib/autospec/simple_runner.rb` and `spec/tasks/posts_spec.rb` are unrelated to synchronisation and are not part of this model.

=== FILE: mapper.dfy ===
/** The topic state mapper of `Imap::Sync`: it reads a topic's archived state
    and tags from a message's flags and labels, and derives the flags and
    labels to push back from a topic. */
module Mapper {
  import opened Types
  import opened Seqs

  /** The two spellings of the inbox-membership label. */
  const InboxLabel: string := "\\Inbox"
  const InboxLabelUpper: string := "INBOX"

  /** Rails' `[[:space:]]`: the Unicode White_Space characters. */
  predicate IsSpace(c: char) {
    || ('\U{9}' <= c <= '\U{D}') || c == ' ' || c == '\U{85}' || c == '\U{A0}'
    || c == '\U{1680}' || ('\U{2000}' <= c <= '\U{200A}') || c == '\U{2028}'
    || c == '\U{2029}' || c == '\U{202F}' || c == '\U{205F}' || c == '\U{3000}'
  }

  /** Rails' `String#blank?`: empty or whitespace only. A provider that has
      no translation for a value answers with a blank string. */
  predicate IsBlank(s: string): (r: bool)
    ensures r <==> forall c :: c in s ==> IsSpace(c)
    ensures s == [] ==> r
  {
    forall i :: 0 <= i < |s| ==> IsSpace(s[i])
  }

  /** `xs.map(f)`. */
  function Images(xs: seq<string>, f: string -> string): (r: seq<string>)
    ensures |r| == |xs|
    ensures forall i :: 0 <= i < |xs| ==> r[i] == f(xs[i])
  {
    seq(|xs|, i requires 0 <= i < |xs| => f(xs[i]))
  }

  /** `xs.map(f).reject(&:blank?)`. */
  function NonBlankImages(xs: seq<string>, f: string -> string): (r: seq<string>)
    ensures |r| <= |xs|
    ensures forall s :: s in r ==> !IsBlank(s)
    ensures forall s :: s in r <==> !IsBlank(s) && exists x :: x in xs && f(x) == s
  {
    var images := Images(xs, f);
    var r := Filter(images, s => !IsBlank(s));
    assert forall s :: s in images <==> exists x :: x in xs && f(x) == s by {
      forall s | s in images ensures exists x :: x in xs && f(x) == s {
        var i :| 0 <= i < |images| && images[i] == s;
        assert xs[i] in xs;
      }
      forall s | exists x :: x in xs && f(x) == s ensures s in images {
        var x :| x in xs && f(x) == s;
        var i :| 0 <= i < |xs| && xs[i] == x;
        assert images[i] == s;
      }
    }
    r
  }

  // ---------------------------------------------------------------------------
  // Archive reconciliation (server -> topic)

  /** A message is archived when neither inbox label is among its labels. */
  predicate IsEmailArchived(labels: seq<string>): (r: bool)
    ensures r <==> forall l :: l in labels ==> l != InboxLabel && l != InboxLabelUpper
  {
    InboxLabel !in labels && InboxLabelUpper !in labels
  }

  /** Moves the topic to the inbox or archives it so that it agrees with the
      message. The transition is made without marking the topic for an
      outbound push; tags are not touched. */
  function ReconcileArchived(labels: seq<string>, topic: Topic): (r: Topic)
    ensures r.archived <==> (InboxLabel !in labels && InboxLabelUpper !in labels)
    ensures r.tags == topic.tags
    ensures r != topic <==> topic.archived != IsEmailArchived(labels)
  {
    var emailArchived := IsEmailArchived(labels);
    if topic.archived && !emailArchived then topic.(archived := false)
    else if !topic.archived && emailArchived then topic.(archived := true)
    else topic
  }

  /** A second reconciliation against the same labels changes nothing. */
  lemma ReconcileArchivedIdempotent(labels: seq<string>, topic: Topic)
    ensures ReconcileArchived(labels, ReconcileArchived(labels, topic)) == ReconcileArchived(labels, topic)
  {
  }

  // ---------------------------------------------------------------------------
  // Tag computation (server -> topic)

  /** The values translated into tags: the mailbox name when one is given,
      then every flag, then every label. */
  function TagSources(mailboxName: Option<string>, flags: seq<string>, labels: seq<string>): seq<string> {
    (if mailboxName.Some? then [mailboxName.value] else []) + flags + labels
  }

  /** The tag names a topic receives from a message: the non-blank
      translations of the mailbox name, the flags and the labels, each once. */
  function InboundTags(mailboxName: Option<string>, flags: seq<string>, labels: seq<string>, toTag: string -> string): (r: seq<string>)
    ensures Distinct(r)
    ensures forall s :: s in r ==> !IsBlank(s)
    ensures forall s :: s in r <==>
      && !IsBlank(s)
      && (|| (mailboxName.Some? && toTag(mailboxName.value) == s)
          || (exists f :: f in flags && toTag(f) == s)
          || (exists l :: l in labels && toTag(l) == s))
  {
    var sources := TagSources(mailboxName, flags, labels);
    assert forall x :: x in sources <==>
      (mailboxName.Some? && x == mailboxName.value) || x in flags || x in labels;
    Uniq(NonBlankImages(sources, toTag))
  }

  /** Dropping elements keeps the relative order of first occurrences of the
      elements that remain. */
  lemma {:induction false} FilterKeepsFirstOccurrenceOrder(xs: seq<string>, p: string -> bool, x: string, y: string)
    requires x in Filter(xs, p) && y in Filter(xs, p)
    ensures FirstIndex(Filter(xs, p), x) < FirstIndex(Filter(xs, p), y) <==> FirstIndex(xs, x) < FirstIndex(xs, y)
  {
    var f := Filter(xs, p);
    var rest := Filter(xs[1..], p);
    assert f == (if p(xs[0]) then [xs[0]] else []) + rest;
    if xs[0] != x && xs[0] != y {
      FilterKeepsFirstOccurrenceOrder(xs[1..], p, x, y);
      if p(xs[0]) {
        assert FirstIndex(f, x) == FirstIndex(rest, x) + 1;
        assert FirstIndex(f, y) == FirstIndex(rest, y) + 1;
      } else {
        assert f == rest;
      }
    }
  }

  /** Tags are listed in the order their first non-blank translation appears
      among the mailbox name, the flags and the labels. */
  lemma InboundTagsOrder(mailboxName: Option<string>, flags: seq<string>, labels: seq<string>, toTag: string -> string)
    ensures var raw := Images(TagSources(mailboxName, flags, labels), toTag);
            var r := InboundTags(mailboxName, flags, labels, toTag);
            (forall s :: s in r ==> s in raw) &&
            forall i, j :: 0 <= i < j < |r| ==> FirstIndex(raw, r[i]) < FirstIndex(raw, r[j])
  {
    var raw := Images(TagSources(mailboxName, flags, labels), toTag);
    var kept := Filter(raw, s => !IsBlank(s));
    var r := InboundTags(mailboxName, flags, labels, toTag);
    assert r == Uniq(kept);
    UniqFirstOccurrenceOrder(kept);
    forall i, j | 0 <= i < j < |r| ensures FirstIndex(raw, r[i]) < FirstIndex(raw, r[j]) {
      FilterKeepsFirstOccurrenceOrder(raw, s => !IsBlank(s), r[i], r[j]);
    }
  }

  // ---------------------------------------------------------------------------
  // Outbound derivation (topic -> server)

  /** The flags a topic asks for: the non-blank flag translations of its tags. */
  function OutboundFlags(tags: seq<string>, tagToFlag: string -> string): (r: seq<string>)
    ensures |r| <= |tags|
    ensures forall s :: s in r ==> !IsBlank(s)
    ensures forall s :: s in r <==> !IsBlank(s) && exists t :: t in tags && tagToFlag(t) == s
  {
    NonBlankImages(tags, tagToFlag)
  }

  /** The labels a topic asks for: the non-blank label translations of its
      tags, followed by the inbox label when the topic is not archived. */
  function OutboundLabels(tags: seq<string>, archived: bool, tagToLabel: string -> string): (r: seq<string>)
    ensures forall s :: s in r ==> !IsBlank(s)
    ensures forall s :: s in r <==>
      || (!IsBlank(s) && exists t :: t in tags && tagToLabel(t) == s)
      || (s == InboxLabel && !archived)
    ensures !archived <==> |r| > 0 && r[|r| - 1] == InboxLabel && r[..|r| - 1] == NonBlankImages(tags, tagToLabel)
  {
    var labels := NonBlankImages(tags, tagToLabel);
    assert !IsBlank(InboxLabel) by { assert !IsSpace(InboxLabel[0]); }
    if archived then labels else labels + [InboxLabel]
  }

  /** As long as no tag translates into an inbox label, the labels pushed for
      a topic read back as that topic's archived state, so pulling them does
      not flip it again. */
  lemma PushedLabelsKeepArchiveState(topic: Topic, tagToLabel: string -> string)
    requires forall t :: t in topic.tags ==> tagToLabel(t) != InboxLabel && tagToLabel(t) != InboxLabelUpper
    ensures IsEmailArchived(OutboundLabels(topic.tags, topic.archived, tagToLabel)) == topic.archived
    ensures ReconcileArchived(OutboundLabels(topic.tags, topic.archived, tagToLabel), topic) == topic
  {
    var r := OutboundLabels(topic.tags, topic.archived, tagToLabel);
    if topic.archived {
      assert InboxLabel != InboxLabelUpper by { assert InboxLabel[0] != InboxLabelUpper[0]; }
    }
  }

  /** When the provider translates every pushed flag and label back into a
      tag of the topic (or into nothing), pulling what was pushed yields the
      topic's own tags again. */
  lemma PushedTagsReadBack(mailboxName: Option<string>, topic: Topic, p: Provider)
    requires forall t :: t in topic.tags ==> !IsBlank(t)
    requires forall t :: t in topic.tags ==> !IsBlank(p.tagToLabel(t)) && p.toTag(p.tagToLabel(t)) == t
    requires forall t :: t in topic.tags ==> IsBlank(p.toTag(p.tagToFlag(t))) || p.toTag(p.tagToFlag(t)) in topic.tags
    requires IsBlank(p.toTag(InboxLabel))
    requires mailboxName.Some? ==> IsBlank(p.toTag(mailboxName.value)) || p.toTag(mailboxName.value) in topic.tags
    ensures forall s :: s in InboundTags(mailboxName,
                                         OutboundFlags(topic.tags, p.tagToFlag),
                                         OutboundLabels(topic.tags, topic.archived, p.tagToLabel),
                                         p.toTag)
                        <==> s in topic.tags
  {
    var flags := OutboundFlags(topic.tags, p.tagToFlag);
    var labels := OutboundLabels(topic.tags, topic.archived, p.tagToLabel);
    var r := InboundTags(mailboxName, flags, labels, p.toTag);
    forall s | s in topic.tags ensures s in r {
      assert p.tagToLabel(s) in labels;
    }
    forall s | s in r ensures s in topic.tags {
      if exists f :: f in flags && p.toTag(f) == s {
        var f :| f in flags && p.toTag(f) == s;
        var t :| t in topic.tags && p.tagToFlag(t) == f;
      } else if exists l :: l in labels && p.toTag(l) == s {
        var l :| l in labels && p.toTag(l) == s;
        if l != InboxLabel {
          var t :| t in topic.tags && p.tagToLabel(t) == l;
        }
      }
    }
  }
}

=== FILE: seqs.dfy ===
/** Sequence operations the synchronisation pass is built from: order-keeping
    filtering, first-occurrence deduplication (Ruby's `uniq`) and the index
    of a value's first occurrence. */
module Seqs {

  ghost predicate Distinct<T>(xs: seq<T>) {
    forall i, j :: 0 <= i < j < |xs| ==> xs[i] != xs[j]
  }

  ghost predicate StrictlyIncreasing(xs: seq<int>) {
    forall i, j :: 0 <= i < j < |xs| ==> xs[i] < xs[j]
  }

  /** The elements of `xs` that satisfy `p`, in their original order. */
  function Filter<T(!new)>(xs: seq<T>, p: T -> bool): (r: seq<T>)
    ensures |r| <= |xs|
    ensures forall x :: x in r <==> x in xs && p(x)
  {
    if xs == [] then []
    else (if p(xs[0]) then [xs[0]] else []) + Filter(xs[1..], p)
  }

  /** Nothing is kept when no element satisfies the predicate. */
  lemma {:induction false} FilterNone<T(!new)>(xs: seq<T>, p: T -> bool)
    requires forall x :: x in xs ==> !p(x)
    ensures Filter(xs, p) == []
  {
    if xs != [] {
      assert xs[0] in xs;
      assert forall x :: x in xs[1..] ==> x in xs;
      FilterNone(xs[1..], p);
    }
  }

  /** The index of the first occurrence of `x` in `xs`. */
  function FirstIndex<T(==)>(xs: seq<T>, x: T): (i: nat)
    requires x in xs
    ensures i < |xs| && xs[i] == x
    ensures x !in xs[..i]
  {
    if xs[0] == x then 0 else FirstIndex(xs[1..], x) + 1
  }

  /** A value's first occurrence in a prefix is its first occurrence in the whole. */
  lemma FirstIndexOfPrefix<T>(xs: seq<T>, k: nat, x: T)
    requires k <= |xs| && x in xs[..k]
    ensures FirstIndex(xs, x) == FirstIndex(xs[..k], x) < k
  {
    var a := FirstIndex(xs, x);
    var b := FirstIndex(xs[..k], x);
    assert xs[b] == x;
    assert forall j :: 0 <= j < b ==> xs[j] != x by {
      forall j | 0 <= j < b ensures xs[j] != x {
        assert xs[..k][j] == xs[j];
      }
    }
  }

  /** Deduplication keeping each value's first occurrence, in order: the
      model of Ruby's `Array#uniq`. */
  function Uniq<T(==,!new)>(xs: seq<T>): (r: seq<T>)
    ensures Distinct(r)
    ensures forall x :: x in r <==> x in xs
    ensures |r| <= |xs|
    decreases |xs|
  {
    if xs == [] then []
    else
      var init := xs[..|xs| - 1];
      var last := xs[|xs| - 1];
      assert xs == init + [last];
      var p := Uniq(init);
      if last in p then p else p + [last]
  }

  /** `Uniq` lists values in the order of their first occurrence in the input. */
  lemma {:induction false} UniqFirstOccurrenceOrder<T(!new)>(xs: seq<T>)
    ensures forall i, j :: 0 <= i < j < |Uniq(xs)| ==>
      FirstIndex(xs, Uniq(xs)[i]) < FirstIndex(xs, Uniq(xs)[j])
    decreases |xs|
  {
    if xs != [] {
      var n := |xs| - 1;
      var init := xs[..n];
      var last := xs[n];
      assert xs == init + [last];
      var p := Uniq(init);
      UniqFirstOccurrenceOrder(init);
      var r := Uniq(xs);
      forall i, j | 0 <= i < j < |r|
        ensures FirstIndex(xs, r[i]) < FirstIndex(xs, r[j])
      {
        assert r[i] in p;
        FirstIndexOfPrefix(xs, n, r[i]);
        if j < |p| {
          assert r[j] in p;
          FirstIndexOfPrefix(xs, n, r[j]);
        } else {
          assert r[j] == last && last !in init;
          assert FirstIndex(xs, last) == n by {
            assert forall k :: 0 <= k < n ==> xs[k] == init[k];
          }
        }
      }
    }
  }

  /** A sequence that is already duplicate-free is left unchanged by `Uniq`. */
  lemma {:induction false} UniqOfDistinct<T(!new)>(xs: seq<T>)
    requires Distinct(xs)
    ensures Uniq(xs) == xs
    decreases |xs|
  {
    if xs != [] {
      var n := |xs| - 1;
      var init := xs[..n];
      assert xs == init + [xs[n]];
      UniqOfDistinct(init);
      assert forall k :: 0 <= k < n ==> init[k] != xs[n];
    }
  }
}

=== FILE: sync.dfy ===
/** One synchronisation pass of `Imap::Sync#process`: the epoch check, the
    old/new UID split, metadata refresh for a sample of old messages,
    ingestion of a batch of new ones with the cursor following each success,
    and the outbound push of locally changed flags and labels. The provider
    and message ingestion are parameters. */
module Sync {
  import opened Types
  import opened Seqs
  import opened Mapper
  import opened Uids

  /** What message ingestion does with a new message, given the epoch it is
      filed under. */
  type Receiver = (Email, int) -> Ingest

  // ---------------------------------------------------------------------------
  // Provider reads

  /** `emails(mailbox, uids, fields)`: the server's messages whose UID was
      asked for, in mailbox order. */
  function Fetch(server: Server, uids: seq<Uid>): (r: seq<Email>)
    ensures |r| <= |server.messages|
    ensures forall e :: e in r <==> e in server.messages && e.uid in uids
  {
    Filter(server.messages, (e: Email) => e.uid in uids)
  }

  // ---------------------------------------------------------------------------
  // Local mirrors

  /** `IncomingEmail.find_by(...)`: the position of the first mirror with
      the key, if any. */
  function Find(store: seq<Mirror>, key: Key): (r: Option<nat>)
    ensures r.Some? ==> r.value < |store| && store[r.value].key == key
    ensures r.Some? ==> forall j :: 0 <= j < r.value ==> store[j].key != key
    ensures r.None? ==> forall j :: 0 <= j < |store| ==> store[j].key != key
    decreases |store|
  {
    if store == [] then None
    else if store[0].key == key then Some(0)
    else match Find(store[1..], key)
      case None => None
      case Some(i) => Some(i + 1)
  }

  /** Records the mirror ingestion produced: replaces the mirror with its
      key, or adds it. */
  function Upsert(store: seq<Mirror>, m: Mirror): (r: seq<Mirror>)
    ensures m in r
    ensures |store| <= |r| <= |store| + 1
    ensures forall j :: 0 <= j < |store| && store[j].key != m.key ==> r[j] == store[j]
    ensures forall j :: 0 <= j < |store| ==> r[j].key == store[j].key
  {
    match Find(store, m.key)
    case Some(i) =>
      assert store[i := m][i] == m;
      store[i := m]
    case None => store + [m]
  }

  /** Only the mirror of a topic's first post drives the topic's state, and
      only while it has no local change waiting to be pushed. */
  predicate Eligible(m: Mirror) {
    m.postNumber == Some(1) && !m.imapSync
  }

  // ---------------------------------------------------------------------------
  // update_topic

  /** `update_topic`: brings the mirror's topic in line with the message:
      archived state from the inbox labels, tags from the mailbox name, flags
      and labels. Nothing happens when the mirror is missing, belongs to a
      reply, or has a pending outbound change. */
  function UpdateTopic(email: Email, mirror: Option<Mirror>, mailboxName: Option<string>, toTag: string -> string): (r: Option<Mirror>)
    ensures r.Some? <==> mirror.Some?
    ensures mirror.None? || mirror.value.postNumber != Some(1) || mirror.value.imapSync ==> r == mirror
    ensures mirror.Some? ==>
      && r.value.key == mirror.value.key
      && r.value.postNumber == mirror.value.postNumber
      && r.value.imapSync == mirror.value.imapSync
    ensures mirror.Some? && Eligible(mirror.value) ==>
      && r.value.topic.archived == IsEmailArchived(email.labels)
      && r.value.topic.tags == InboundTags(mailboxName, email.flags, email.labels, toTag)
  {
    match mirror
    case None => None
    case Some(m) =>
      if !Eligible(m) then mirror
      else
        var archived := ReconcileArchived(email.labels, m.topic);
        Some(m.(topic := archived.(tags := InboundTags(mailboxName, email.flags, email.labels, toTag))))
  }

  /** Applying the same message twice is the same as applying it once. */
  lemma UpdateTopicIdempotent(email: Email, mirror: Option<Mirror>, mailboxName: Option<string>, toTag: string -> string)
    ensures UpdateTopic(email, UpdateTopic(email, mirror, mailboxName, toTag), mailboxName, toTag)
         == UpdateTopic(email, mirror, mailboxName, toTag)
  {
  }

  /** Refreshes the mirror with the message's key, if there is one. */
  function RefreshOne(email: Email, store: seq<Mirror>, uidValidity: int, mailboxName: string, toTag: string -> string): (r: seq<Mirror>)
    ensures |r| == |store|
    ensures forall j :: 0 <= j < |r| ==> r[j].key == store[j].key && r[j].postNumber == store[j].postNumber && r[j].imapSync == store[j].imapSync
    ensures forall j :: 0 <= j < |r| && (!Eligible(store[j]) || store[j].key != Key(uidValidity, email.uid)) ==> r[j] == store[j]
  {
    match Find(store, Key(uidValidity, email.uid))
    case None => store
    case Some(i) => store[i := UpdateTopic(email, Some(store[i]), Some(mailboxName), toTag).value]
  }

  /** The loop over old messages: metadata refresh only. A message with no
      mirror is skipped; no mirror changes key, post or sync mark. */
  function RefreshOld(emails: seq<Email>, store: seq<Mirror>, uidValidity: int, mailboxName: string, toTag: string -> string): (r: seq<Mirror>)
    ensures |r| == |store|
    ensures forall j :: 0 <= j < |r| ==> r[j].key == store[j].key && r[j].postNumber == store[j].postNumber && r[j].imapSync == store[j].imapSync
    ensures forall j :: 0 <= j < |r| && !Eligible(store[j]) ==> r[j] == store[j]
    ensures forall j :: 0 <= j < |r| && (forall e :: e in emails ==> Key(uidValidity, e.uid) != store[j].key) ==> r[j] == store[j]
    decreases |emails|
  {
    if emails == [] then store
    else
      var next := RefreshOne(emails[0], store, uidValidity, mailboxName, toTag);
      var r := RefreshOld(emails[1..], next, uidValidity, mailboxName, toTag);
      assert forall e :: e in emails[1..] ==> e in emails;
      r
  }

  // ---------------------------------------------------------------------------
  // The loop over new messages

  datatype Ingestion = Ingestion(lastSeen: nat, store: seq<Mirror>)

  /** The loop over new messages. Each message goes to ingestion; on success
      its topic is updated and the cursor moves to its UID; a processing
      error skips it and leaves the cursor where it is, and the loop goes
      on with the next message. */
  function IngestNew(emails: seq<Email>, lastSeen: nat, store: seq<Mirror>, uidValidity: int,
                     mailboxName: string, toTag: string -> string, receive: Receiver): (r: Ingestion)
    ensures r.lastSeen == lastSeen || exists e :: e in emails && receive(e, uidValidity).Ingested? && r.lastSeen == e.uid
    ensures |store| <= |r.store| <= |store| + |emails|
    ensures forall j :: 0 <= j < |store| ==> r.store[j].key == store[j].key
    decreases |emails|
  {
    if emails == [] then Ingestion(lastSeen, store)
    else
      var e := emails[0];
      assert forall x :: x in emails[1..] ==> x in emails;
      match receive(e, uidValidity)
      case ProcessingError =>
        IngestNew(emails[1..], lastSeen, store, uidValidity, mailboxName, toTag, receive)
      case Ingested(m) =>
        var updated := UpdateTopic(e, Some(m), Some(mailboxName), toTag).value;
        IngestNew(emails[1..], e.uid, Upsert(store, updated), uidValidity, mailboxName, toTag, receive)
  }

  /** Reference definition of the cursor's destination, read from the back:
      the UID of the last message, in batch order, that ingestion accepted. */
  function LastIngested(emails: seq<Email>, uidValidity: int, receive: Receiver): (r: Option<Uid>)
    ensures r.Some? ==> exists i :: 0 <= i < |emails| && emails[i].uid == r.value && receive(emails[i], uidValidity).Ingested?
    ensures r.None? <==> forall i :: 0 <= i < |emails| ==> receive(emails[i], uidValidity).ProcessingError?
    decreases |emails|
  {
    if emails == [] then None
    else
      var last := emails[|emails| - 1];
      if receive(last, uidValidity).Ingested? then Some(last.uid)
      else LastIngested(emails[..|emails| - 1], uidValidity, receive)
  }

  /** The UID `LastIngested` names belongs to an accepted message after
      which every message of the batch failed. */
  lemma {:induction false} LastIngestedIsLast(emails: seq<Email>, uidValidity: int, receive: Receiver) returns (i: nat)
    requires LastIngested(emails, uidValidity, receive).Some?
    ensures i < |emails| && emails[i].uid == LastIngested(emails, uidValidity, receive).value
    ensures receive(emails[i], uidValidity).Ingested?
    ensures forall j :: i < j < |emails| ==> receive(emails[j], uidValidity).ProcessingError?
    decreases |emails|
  {
    var n := |emails| - 1;
    if receive(emails[n], uidValidity).Ingested? {
      i := n;
    } else {
      var init := emails[..n];
      i := LastIngestedIsLast(init, uidValidity, receive);
      assert emails[i] == init[i];
      forall j | i < j < |emails| ensures receive(emails[j], uidValidity).ProcessingError? {
        if j < n {
          assert emails[j] == init[j];
        }
      }
    }
  }

  /** Putting a message in front changes the answer only when nothing after
      it was accepted. */
  lemma {:induction false} LastIngestedCons(e: Email, rest: seq<Email>, uidValidity: int, receive: Receiver)
    ensures LastIngested([e] + rest, uidValidity, receive) ==
      match LastIngested(rest, uidValidity, receive)
      case Some(u) => Some(u)
      case None => if receive(e, uidValidity).Ingested? then Some(e.uid) else None
    decreases |rest|
  {
    var es := [e] + rest;
    if rest != [] {
      var n := |rest| - 1;
      assert es[|es| - 1] == rest[n];
      assert es[..|es| - 1] == [e] + rest[..n];
      LastIngestedCons(e, rest[..n], uidValidity, receive);
    }
  }

  /** After the new-message loop the cursor is the UID of the last message in
      batch order whose ingestion succeeded, and it is unchanged when none
      did. Failures before that message do not hold the cursor back. */
  lemma {:induction false} CursorIsLastSuccess(emails: seq<Email>, lastSeen: nat, store: seq<Mirror>, uidValidity: int,
                                               mailboxName: string, toTag: string -> string, receive: Receiver)
    ensures IngestNew(emails, lastSeen, store, uidValidity, mailboxName, toTag, receive).lastSeen
         == LastIngested(emails, uidValidity, receive).GetOr(lastSeen)
    decreases |emails|
  {
    if emails != [] {
      var e := emails[0];
      assert emails == [e] + emails[1..];
      LastIngestedCons(e, emails[1..], uidValidity, receive);
      match receive(e, uidValidity)
      case ProcessingError =>
        CursorIsLastSuccess(emails[1..], lastSeen, store, uidValidity, mailboxName, toTag, receive);
      case Ingested(m) =>
        var updated := UpdateTopic(e, Some(m), Some(mailboxName), toTag).value;
        CursorIsLastSuccess(emails[1..], e.uid, Upsert(store, updated), uidValidity, mailboxName, toTag, receive);
    }
  }

  /** With distinct UIDs, and a starting cursor that is no message's UID, the
      cursor never lands on a message whose ingestion failed. */
  lemma CursorSkipsFailures(emails: seq<Email>, lastSeen: nat, store: seq<Mirror>, uidValidity: int,
                            mailboxName: string, toTag: string -> string, receive: Receiver)
    requires forall i, j :: 0 <= i < j < |emails| ==> emails[i].uid != emails[j].uid
    requires forall i :: 0 <= i < |emails| ==> emails[i].uid != lastSeen
    ensures var c := IngestNew(emails, lastSeen, store, uidValidity, mailboxName, toTag, receive).lastSeen;
            forall i :: 0 <= i < |emails| && receive(emails[i], uidValidity).ProcessingError? ==> emails[i].uid != c
  {
    CursorIsLastSuccess(emails, lastSeen, store, uidValidity, mailboxName, toTag, receive);
    var last := LastIngested(emails, uidValidity, receive);
    forall i | 0 <= i < |emails| && receive(emails[i], uidValidity).ProcessingError?
      ensures emails[i].uid != last.GetOr(lastSeen)
    {
      if last.Some? {
        var k :| 0 <= k < |emails| && emails[k].uid == last.value && receive(emails[k], uidValidity).Ingested?;
        assert k != i;
      }
    }
  }

  /** Ingestion accepts `e` and files it under `key`. */
  predicate AcceptedAs(receive: Receiver, e: Email, uidValidity: int, key: Key) {
    receive(e, uidValidity).Ingested? && receive(e, uidValidity).mirror.key == key
  }

  /** What the new-message loop leaves in the store: every accepted
      message's mirror, after `update_topic`, unless a later accepted message
      was filed under the same key; and every earlier mirror whose key no
      accepted message has, in its place and unchanged. */
  lemma {:induction false} IngestNewRecords(emails: seq<Email>, lastSeen: nat, store: seq<Mirror>, uidValidity: int,
                                            mailboxName: string, toTag: string -> string, receive: Receiver)
    ensures var r := IngestNew(emails, lastSeen, store, uidValidity, mailboxName, toTag, receive).store;
            forall i :: 0 <= i < |emails| && receive(emails[i], uidValidity).Ingested?
                        && (forall j :: i < j < |emails| ==> !AcceptedAs(receive, emails[j], uidValidity, receive(emails[i], uidValidity).mirror.key))
                        ==> UpdateTopic(emails[i], Some(receive(emails[i], uidValidity).mirror), Some(mailboxName), toTag).value in r
    ensures var r := IngestNew(emails, lastSeen, store, uidValidity, mailboxName, toTag, receive).store;
            forall j :: 0 <= j < |store| && (forall e :: e in emails ==> !AcceptedAs(receive, e, uidValidity, store[j].key))
                        ==> r[j] == store[j]
    decreases |emails|
  {
    IngestNewKeeps(emails, lastSeen, store, uidValidity, mailboxName, toTag, receive);
    if emails != [] {
      var e := emails[0];
      var tail := emails[1..];
      assert forall a :: 0 <= a < |tail| ==> tail[a] == emails[a + 1];
      var r := IngestNew(emails, lastSeen, store, uidValidity, mailboxName, toTag, receive).store;
      match receive(e, uidValidity)
      case ProcessingError =>
        IngestNewRecords(tail, lastSeen, store, uidValidity, mailboxName, toTag, receive);
        forall i | 0 <= i < |emails| && receive(emails[i], uidValidity).Ingested?
                   && (forall j :: i < j < |emails| ==> !AcceptedAs(receive, emails[j], uidValidity, receive(emails[i], uidValidity).mirror.key))
          ensures UpdateTopic(emails[i], Some(receive(emails[i], uidValidity).mirror), Some(mailboxName), toTag).value in r
        {
          assert i != 0 && emails[i] == tail[i - 1];
        }
      case Ingested(m) =>
        var updated := UpdateTopic(e, Some(m), Some(mailboxName), toTag).value;
        var next := Upsert(store, updated);
        IngestNewRecords(tail, e.uid, next, uidValidity, mailboxName, toTag, receive);
        assert r == IngestNew(tail, e.uid, next, uidValidity, mailboxName, toTag, receive).store;
        forall i | 0 <= i < |emails| && receive(emails[i], uidValidity).Ingested?
                   && (forall j :: i < j < |emails| ==> !AcceptedAs(receive, emails[j], uidValidity, receive(emails[i], uidValidity).mirror.key))
          ensures UpdateTopic(emails[i], Some(receive(emails[i], uidValidity).mirror), Some(mailboxName), toTag).value in r
        {
          if i == 0 {
            var q :| 0 <= q < |next| && next[q] == updated;
            forall x | x in tail ensures !AcceptedAs(receive, x, uidValidity, next[q].key) {
              var b :| 0 <= b < |tail| && tail[b] == x;
              assert emails[b + 1] == x;
            }
            assert r[q] == updated;
          } else {
            assert emails[i] == tail[i - 1];
          }
        }
    }
  }

  /** The new-message loop leaves in place every mirror whose key no
      accepted message has. */
  lemma {:induction false} IngestNewKeeps(emails: seq<Email>, lastSeen: nat, store: seq<Mirror>, uidValidity: int,
                                          mailboxName: string, toTag: string -> string, receive: Receiver)
    ensures var r := IngestNew(emails, lastSeen, store, uidValidity, mailboxName, toTag, receive).store;
            forall j :: 0 <= j < |store| && (forall e :: e in emails ==> !AcceptedAs(receive, e, uidValidity, store[j].key))
                        ==> r[j] == store[j]
    decreases |emails|
  {
    if emails != [] {
      var e := emails[0];
      var tail := emails[1..];
      assert e in emails;
      assert forall x :: x in tail ==> x in emails;
      match receive(e, uidValidity)
      case ProcessingError =>
        IngestNewKeeps(tail, lastSeen, store, uidValidity, mailboxName, toTag, receive);
      case Ingested(m) =>
        var updated := UpdateTopic(e, Some(m), Some(mailboxName), toTag).value;
        IngestNewKeeps(tail, e.uid, Upsert(store, updated), uidValidity, mailboxName, toTag, receive);
    }
  }

  // ---------------------------------------------------------------------------
  // update_email and the outbound loop

  datatype EmailUpdate = EmailUpdate(mirror: Mirror, server: Server, calls: seq<StoreCall>)

  /** What a delta `store` leaves on the server: the field of the message
      with that UID holds the new values. */
  function ApplyStore(server: Server, call: StoreCall): (r: Server)
    ensures r.uidValidity == server.uidValidity
    ensures |r.messages| == |server.messages|
    ensures forall i :: 0 <= i < |r.messages| ==> r.messages[i].uid == server.messages[i].uid
    ensures AllUids(r) == AllUids(server)
    ensures forall i :: 0 <= i < |r.messages| && r.messages[i].uid != call.uid ==> r.messages[i] == server.messages[i]
    ensures forall i :: 0 <= i < |r.messages| && r.messages[i].uid == call.uid ==>
      && r.messages[i].body == server.messages[i].body
      && (call.field == Flags ==> r.messages[i].flags == call.newValues && r.messages[i].labels == server.messages[i].labels)
      && (call.field == Labels ==> r.messages[i].labels == call.newValues && r.messages[i].flags == server.messages[i].flags)
  {
    server.(messages := seq(|server.messages|, i requires 0 <= i < |server.messages| =>
      var e := server.messages[i];
      if e.uid != call.uid then e
      else if call.field == Flags then e.(flags := call.newValues)
      else e.(labels := call.newValues)))
  }

  /** `update_email`: pushes a first-post mirror's pending change. The
      current flags and labels are fetched afresh and handed to `store` as
      the old values; the new ones are derived from the topic; the mirror's
      sync mark is cleared. Nothing happens when tagging is off, the mirror
      is a reply or has nothing pending, or the server has no message with
      the mirror's UID number. */
  function UpdateEmail(settings: Settings, m: Mirror, server: Server, p: Provider): (r: EmailUpdate)
    ensures var fetched := Fetch(server, [m.key.uid]);
      if !settings.taggingEnabled || !settings.allowStaffToTagPms
         || m.postNumber != Some(1) || !m.imapSync || fetched == []
      then r == EmailUpdate(m, server, [])
      else
        && r.mirror == m.(imapSync := false)
        && |r.calls| == 2
        && r.calls[0] == StoreCall(m.key.uid, Flags, fetched[0].flags, OutboundFlags(m.topic.tags, p.tagToFlag))
        && r.calls[1] == StoreCall(m.key.uid, Labels, fetched[0].labels,
                                   OutboundLabels(m.topic.tags, m.topic.archived, p.tagToLabel))
        && fetched[0] in server.messages && fetched[0].uid == m.key.uid
        && forall e :: e in r.server.messages && e.uid == m.key.uid ==>
             e.flags == r.calls[0].newValues && e.labels == r.calls[1].newValues
    ensures r.server.uidValidity == server.uidValidity
    ensures forall e :: e in server.messages && e.uid != m.key.uid ==> e in r.server.messages
    ensures r.mirror.key == m.key && r.mirror.topic == m.topic && r.mirror.postNumber == m.postNumber
  {
    if !settings.taggingEnabled || !settings.allowStaffToTagPms then EmailUpdate(m, server, [])
    else if m.postNumber != Some(1) || !m.imapSync then EmailUpdate(m, server, [])
    else
      var fetched := Fetch(server, [m.key.uid]);
      if fetched == [] then EmailUpdate(m, server, [])
      else
        var email := fetched[0];
        assert email in fetched;
        var synced := m.(imapSync := false);
        var flagsCall := StoreCall(m.key.uid, Flags, email.flags, OutboundFlags(m.topic.tags, p.tagToFlag));
        var labelsCall := StoreCall(m.key.uid, Labels, email.labels, OutboundLabels(m.topic.tags, m.topic.archived, p.tagToLabel));
        EmailUpdate(synced, ApplyStore(ApplyStore(server, flagsCall), labelsCall), [flagsCall, labelsCall])
  }

  /** Push followed by pull: once a topic's change has been pushed, reading
      the message back yields the same archived state and the same tag set,
      provided the provider's translations invert each other as
      `PushedTagsReadBack` and `PushedLabelsKeepArchiveState` require. */
  lemma PushThenPullKeepsTopic(settings: Settings, m: Mirror, server: Server, p: Provider, mailboxName: string)
    requires settings.taggingEnabled && settings.allowStaffToTagPms
    requires m.postNumber == Some(1) && m.imapSync
    requires exists e :: e in server.messages && e.uid == m.key.uid
    requires forall t :: t in m.topic.tags ==> !IsBlank(t)
    requires forall t :: t in m.topic.tags ==> !IsBlank(p.tagToLabel(t)) && p.toTag(p.tagToLabel(t)) == t
    requires forall t :: t in m.topic.tags ==> p.tagToLabel(t) != InboxLabel && p.tagToLabel(t) != InboxLabelUpper
    requires forall t :: t in m.topic.tags ==> IsBlank(p.toTag(p.tagToFlag(t))) || p.toTag(p.tagToFlag(t)) in m.topic.tags
    requires IsBlank(p.toTag(InboxLabel))
    requires IsBlank(p.toTag(mailboxName)) || p.toTag(mailboxName) in m.topic.tags
    ensures var r := UpdateEmail(settings, m, server, p);
            && r.calls != []
            && forall e :: e in r.server.messages && e.uid == m.key.uid ==>
                 var pulled := UpdateTopic(e, Some(r.mirror), Some(mailboxName), p.toTag).value;
                 && pulled.key == m.key && !pulled.imapSync
                 && pulled.topic.archived == m.topic.archived
                 && forall s :: s in pulled.topic.tags <==> s in m.topic.tags
  {
    var e0 :| e0 in server.messages && e0.uid == m.key.uid;
    assert e0 in Fetch(server, [m.key.uid]);
    PushedLabelsKeepArchiveState(m.topic, p.tagToLabel);
    PushedTagsReadBack(Some(mailboxName), m.topic, p);
  }

  datatype Outbound = Outbound(mirrors: seq<Mirror>, server: Server, calls: seq<StoreCall>)

  /** The UIDs of the first-post mirrors with a pending outbound change. */
  function PendingUids(store: seq<Mirror>): set<Uid>
    decreases |store|
  {
    if store == [] then {}
    else (if store[0].imapSync && store[0].postNumber == Some(1) then {store[0].key.uid} else {}) + PendingUids(store[1..])
  }

  /** The outbound loop over every mirror marked for sync, in store order.
      Only sync marks change; a mirror with nothing pending is untouched. */
  function PushLocal(store: seq<Mirror>, server: Server, settings: Settings, p: Provider): (r: Outbound)
    ensures |r.mirrors| == |store|
    ensures forall j :: 0 <= j < |store| ==> r.mirrors[j] == store[j] || r.mirrors[j] == store[j].(imapSync := false)
    ensures !settings.taggingEnabled || !settings.allowStaffToTagPms ==> r == Outbound(store, server, [])
    decreases |store|
  {
    if store == [] then Outbound([], server, [])
    else
      var u := UpdateEmail(settings, store[0], server, p);
      var rest := PushLocal(store[1..], u.server, settings, p);
      Outbound([u.mirror] + rest.mirrors, rest.server, u.calls + rest.calls)
  }

  /** Whether the outbound loop pushes mirror `m` to a server holding
      `uids`: tagging is on, the mirror is a first post's, it is marked for
      sync, and the server has a message with its UID number, whatever
      the epoch the mirror was filed under. */
  predicate Pushes(settings: Settings, m: Mirror, uids: seq<Uid>) {
    && settings.taggingEnabled && settings.allowStaffToTagPms
    && m.postNumber == Some(1) && m.imapSync && m.key.uid in uids
  }

  /** A `store` request without the old values it carries along. */
  datatype Request = Request(uid: Uid, field: Field, newValues: seq<string>)

  function Requests(calls: seq<StoreCall>): (r: seq<Request>)
    ensures |r| == |calls|
    ensures forall i :: 0 <= i < |calls| ==> r[i] == Request(calls[i].uid, calls[i].field, calls[i].newValues)
  {
    seq(|calls|, i requires 0 <= i < |calls| => Request(calls[i].uid, calls[i].field, calls[i].newValues))
  }

  lemma RequestsAppend(a: seq<StoreCall>, b: seq<StoreCall>)
    ensures Requests(a + b) == Requests(a) + Requests(b)
  {
  }

  /** Reference definition of what the outbound loop asks of the server: for
      every mirror it pushes, in store order, the topic's flags and then its
      labels. */
  function Wanted(store: seq<Mirror>, uids: seq<Uid>, settings: Settings, p: Provider): seq<Request>
    decreases |store|
  {
    if store == [] then []
    else
      var m := store[0];
      (if Pushes(settings, m, uids)
       then [Request(m.key.uid, Flags, OutboundFlags(m.topic.tags, p.tagToFlag)),
             Request(m.key.uid, Labels, OutboundLabels(m.topic.tags, m.topic.archived, p.tagToLabel))]
       else [])
      + Wanted(store[1..], uids, settings, p)
  }

  /** The message fetch in `update_email` finds something exactly when the
      server holds the UID. */
  lemma FetchOne(server: Server, u: Uid)
    ensures Fetch(server, [u]) != [] <==> u in AllUids(server)
  {
    var uids := AllUids(server);
    if u in uids {
      var i :| 0 <= i < |uids| && uids[i] == u;
      assert server.messages[i] in Fetch(server, [u]);
    }
    if Fetch(server, [u]) != [] {
      var e := Fetch(server, [u])[0];
      assert e in Fetch(server, [u]);
      var i :| 0 <= i < |server.messages| && server.messages[i] == e;
      assert uids[i] == u;
    }
  }

  /** `update_email` pushes exactly the mirrors `Pushes` names, with the
      requests `Wanted` lists for them, and keeps the server's UIDs. */
  lemma UpdateEmailPushes(settings: Settings, m: Mirror, server: Server, p: Provider)
    ensures var u := UpdateEmail(settings, m, server, p);
            && u.mirror == (if Pushes(settings, m, AllUids(server)) then m.(imapSync := false) else m)
            && Requests(u.calls) == Wanted([m], AllUids(server), settings, p)
            && AllUids(u.server) == AllUids(server)
  {
    FetchOne(server, m.key.uid);
    WantedOne(m, AllUids(server), settings, p);
    var u := UpdateEmail(settings, m, server, p);
    if Pushes(settings, m, AllUids(server)) {
      assert Requests(u.calls) == [Request(m.key.uid, Flags, OutboundFlags(m.topic.tags, p.tagToFlag)),
                                   Request(m.key.uid, Labels, OutboundLabels(m.topic.tags, m.topic.archived, p.tagToLabel))];
    } else {
      assert u.calls == [];
    }
  }

  lemma WantedOne(m: Mirror, uids: seq<Uid>, settings: Settings, p: Provider)
    ensures Wanted([m], uids, settings, p) ==
            if Pushes(settings, m, uids)
            then [Request(m.key.uid, Flags, OutboundFlags(m.topic.tags, p.tagToFlag)),
                  Request(m.key.uid, Labels, OutboundLabels(m.topic.tags, m.topic.archived, p.tagToLabel))]
            else []
  {
    assert [m][1..] == [];
  }

  /** The outbound loop pushes every mirror it should: each mirror is cleared
      of its sync mark exactly when `Pushes` holds for it, and the requests
      sent are exactly those `Wanted` lists. A `store` keeps the server's
      UIDs, so whether the server holds a mirror's message is the same at
      every step. */
  lemma PushLocalPushes(store: seq<Mirror>, server: Server, settings: Settings, p: Provider)
    ensures var r := PushLocal(store, server, settings, p);
            && Requests(r.calls) == Wanted(store, AllUids(server), settings, p)
            && (forall j :: 0 <= j < |store| ==>
                  r.mirrors[j] == if Pushes(settings, store[j], AllUids(server)) then store[j].(imapSync := false) else store[j])
            && AllUids(r.server) == AllUids(server)
  {
    PushLocalRequests(store, server, settings, p);
    PushLocalClears(store, server, settings, p);
    PushLocalKeepsUids(store, server, settings, p);
  }

  lemma {:induction false} PushLocalRequests(store: seq<Mirror>, server: Server, settings: Settings, p: Provider)
    ensures Requests(PushLocal(store, server, settings, p).calls) == Wanted(store, AllUids(server), settings, p)
    decreases |store|
  {
    if store != [] {
      var u := UpdateEmail(settings, store[0], server, p);
      UpdateEmailPushes(settings, store[0], server, p);
      PushLocalRequests(store[1..], u.server, settings, p);
      RequestsAppend(u.calls, PushLocal(store[1..], u.server, settings, p).calls);
    }
  }

  lemma {:induction false} PushLocalClears(store: seq<Mirror>, server: Server, settings: Settings, p: Provider)
    ensures var r := PushLocal(store, server, settings, p);
            forall j :: 0 <= j < |store| ==>
              r.mirrors[j] == if Pushes(settings, store[j], AllUids(server)) then store[j].(imapSync := false) else store[j]
    decreases |store|
  {
    if store != [] {
      var u := UpdateEmail(settings, store[0], server, p);
      UpdateEmailPushes(settings, store[0], server, p);
      PushLocalClears(store[1..], u.server, settings, p);
      var rest := PushLocal(store[1..], u.server, settings, p);
      var r := PushLocal(store, server, settings, p);
      assert r.mirrors == [u.mirror] + rest.mirrors;
      forall j | 0 <= j < |store|
        ensures r.mirrors[j] == if Pushes(settings, store[j], AllUids(server)) then store[j].(imapSync := false) else store[j]
      {
        if j > 0 {
          assert r.mirrors[j] == rest.mirrors[j - 1] && store[j] == store[1..][j - 1];
        }
      }
    }
  }

  lemma {:induction false} PushLocalKeepsUids(store: seq<Mirror>, server: Server, settings: Settings, p: Provider)
    ensures AllUids(PushLocal(store, server, settings, p).server) == AllUids(server)
    decreases |store|
  {
    if store != [] {
      var u := UpdateEmail(settings, store[0], server, p);
      UpdateEmailPushes(settings, store[0], server, p);
      PushLocalKeepsUids(store[1..], u.server, settings, p);
    }
  }

  /** Every `store` the outbound loop issues belongs to a first-post mirror
      with a pending change, and asks for no blank flag or label. */
  lemma {:induction false} PushedCallsArePending(store: seq<Mirror>, server: Server, settings: Settings, p: Provider)
    ensures forall c :: c in PushLocal(store, server, settings, p).calls ==>
      c.uid in PendingUids(store) && forall s :: s in c.newValues ==> !IsBlank(s)
    decreases |store|
  {
    if store != [] {
      var u := UpdateEmail(settings, store[0], server, p);
      PushedCallsArePending(store[1..], u.server, settings, p);
    }
  }

  // ---------------------------------------------------------------------------
  // process

  /** The epoch check, the UID split and the two work bounds: the cursor
      after the epoch check and the UIDs the pass will work on. */
  datatype Plan = Plan(lastSeen: nat, oldSample: seq<Uid>, newBatch: seq<Uid>)

  /** A changed UIDVALIDITY invalidates the cursor: partitioning sees 0. */
  function CheckedLastSeen(mailbox: Mailbox, serverValidity: int): (r: nat)
    ensures r == mailbox.lastSeenUid || r == 0
    ensures r == mailbox.lastSeenUid <==> serverValidity == mailbox.uidValidity || mailbox.lastSeenUid == 0
  {
    if serverValidity != mailbox.uidValidity then 0 else mailbox.lastSeenUid
  }

  function PlanPass(mailbox: Mailbox, server: Server, draws: seq<nat>): (r: Plan)
    ensures server.uidValidity != mailbox.uidValidity ==> r.lastSeen == 0
    ensures server.uidValidity == mailbox.uidValidity ==> r.lastSeen == mailbox.lastSeenUid
    ensures r.lastSeen == 0 ==> r.oldSample == [] && r.newBatch == AllUids(server)[..Min(NewBatchSize, |server.messages|)]
    ensures |r.oldSample| <= OldSampleSize && |r.newBatch| <= NewBatchSize
    ensures forall u :: u in r.oldSample ==> u in AllUids(server) && u <= r.lastSeen
    ensures forall u :: u in r.newBatch ==> u in AllUids(server) && (r.lastSeen != 0 ==> u > r.lastSeen)
    ensures var part := PartitionUids(AllUids(server), r.lastSeen);
            && |r.oldSample| == Min(OldSampleSize, |part.oldUids|)
            && multiset(r.oldSample) <= multiset(part.oldUids)
            && |r.newBatch| == Min(NewBatchSize, |part.newUids|)
            && r.newBatch == part.newUids[..|r.newBatch|]
    ensures WellFormed(server) ==>
            var part := PartitionUids(AllUids(server), r.lastSeen);
            forall u, v :: u in r.newBatch && v in part.newUids[|r.newBatch|..] ==> u < v
  {
    var lastSeen := CheckedLastSeen(mailbox, server.uidValidity);
    Plan(lastSeen, OldSample(AllUids(server), lastSeen, draws), NewBatch(AllUids(server), lastSeen))
  }

  datatype PassResult = PassResult(mailbox: Mailbox, store: seq<Mirror>, server: Server, calls: seq<StoreCall>)

  /** The server-to-local half of a pass: the epoch check and the UID
      split, the refresh of the sampled old messages, and the loop over the
      new batch. It yields the cursor and the store the push starts from. */
  function Pull(mailbox: Mailbox, server: Server, store: seq<Mirror>, p: Provider,
                receive: Receiver, draws: seq<nat>): (r: Ingestion)
    ensures |r.store| >= |store|
    ensures forall j :: 0 <= j < |store| ==> r.store[j].key == store[j].key
    ensures || r.lastSeen == CheckedLastSeen(mailbox, server.uidValidity)
            || exists e :: e in server.messages && receive(e, server.uidValidity).Ingested? && e.uid == r.lastSeen
  {
    var plan := PlanPass(mailbox, server, draws);
    var validity := server.uidValidity;
    var refreshed :=
      if plan.oldSample != [] then RefreshOld(Fetch(server, plan.oldSample), store, validity, mailbox.name, p.toTag)
      else store;
    if plan.newBatch != [] then IngestNew(Fetch(server, plan.newBatch), plan.lastSeen, refreshed, validity, mailbox.name, p.toTag, receive)
    else Ingestion(plan.lastSeen, refreshed)
  }

  /** `process(mailbox)`: one pass. `draws` is the random source behind the
      sample of old UIDs. The mailbox comes back with the server's epoch and
      the advanced cursor; in read-only mode nothing is written to the server. */
  function Process(mailbox: Mailbox, server: Server, store: seq<Mirror>, settings: Settings,
                   p: Provider, receive: Receiver, draws: seq<nat>): (r: PassResult)
    ensures r.mailbox.name == mailbox.name
    ensures r.mailbox.uidValidity == server.uidValidity
    ensures settings.imapReadOnly ==> r.calls == [] && r.server == server
    ensures settings.imapReadOnly ==> r.store == Pull(mailbox, server, store, p, receive, draws).store
    ensures |r.store| >= |store|
    ensures forall j :: 0 <= j < |store| ==> r.store[j].key == store[j].key
  {
    var pulled := Pull(mailbox, server, store, p, receive, draws);
    var persisted := Mailbox(mailbox.name, server.uidValidity, pulled.lastSeen);
    if settings.imapReadOnly then PassResult(persisted, pulled.store, server, [])
    else
      var out := PushLocal(pulled.store, server, settings, p);
      PassResult(persisted, out.mirrors, out.server, out.calls)
  }

  // ---------------------------------------------------------------------------
  // Properties of a pass

  /** A mirror that is eligible when the old loop reaches its message ends
      up with that message's archived state and tags, whatever later
      messages of the sample do (they carry other UIDs). */
  lemma {:induction false} RefreshOldAppliesMessage(emails: seq<Email>, store: seq<Mirror>, uidValidity: int,
                                                    mailboxName: string, toTag: string -> string, j: nat, k: nat)
    requires j < |store| && k < |emails|
    requires forall a, b :: 0 <= a < b < |store| ==> store[a].key != store[b].key
    requires forall a, b :: 0 <= a < b < |emails| ==> emails[a].uid != emails[b].uid
    requires Eligible(store[j]) && store[j].key == Key(uidValidity, emails[k].uid)
    ensures var e := emails[k];
            RefreshOld(emails, store, uidValidity, mailboxName, toTag)[j].topic
              == Topic(IsEmailArchived(e.labels), InboundTags(Some(mailboxName), e.flags, e.labels, toTag))
    decreases |emails|
  {
    var e0 := emails[0];
    var next := RefreshOne(e0, store, uidValidity, mailboxName, toTag);
    var rest := emails[1..];
    assert RefreshOld(emails, store, uidValidity, mailboxName, toTag) == RefreshOld(rest, next, uidValidity, mailboxName, toTag);
    if k == 0 {
      var i := Find(store, Key(uidValidity, e0.uid)).value;
      assert i == j;
      forall e | e in rest ensures Key(uidValidity, e.uid) != next[j].key {
        var b :| 0 <= b < |rest| && rest[b] == e;
        assert emails[b + 1] == e;
      }
      assert next[j] == UpdateTopic(e0, Some(store[j]), Some(mailboxName), toTag).value;
      assert RefreshOld(rest, next, uidValidity, mailboxName, toTag)[j] == next[j];
    } else {
      assert store[j].key != Key(uidValidity, e0.uid);
      assert rest[k - 1] == emails[k];
      RefreshOldAppliesMessage(rest, next, uidValidity, mailboxName, toTag, j, k - 1);
    }
  }

  /** After the server-to-local half, every accepted message of the new
      batch has its mirror in the store, after `update_topic`, unless a later
      message of the batch was accepted under the same key. */
  lemma PullRecordsIngested(mailbox: Mailbox, server: Server, store: seq<Mirror>, p: Provider,
                            receive: Receiver, draws: seq<nat>)
    ensures var news := Fetch(server, PlanPass(mailbox, server, draws).newBatch);
            var v := server.uidValidity;
            var r := Pull(mailbox, server, store, p, receive, draws).store;
            forall i :: 0 <= i < |news| && receive(news[i], v).Ingested?
                        && (forall j :: i < j < |news| ==> !AcceptedAs(receive, news[j], v, receive(news[i], v).mirror.key))
                        ==> UpdateTopic(news[i], Some(receive(news[i], v).mirror), Some(mailbox.name), p.toTag).value in r
  {
    var plan := PlanPass(mailbox, server, draws);
    var validity := server.uidValidity;
    var refreshed :=
      if plan.oldSample != [] then RefreshOld(Fetch(server, plan.oldSample), store, validity, mailbox.name, p.toTag)
      else store;
    if plan.newBatch != [] {
      IngestNewRecords(Fetch(server, plan.newBatch), plan.lastSeen, refreshed, validity, mailbox.name, p.toTag, receive);
    } else {
      FilterNone(server.messages, (e: Email) => e.uid in plan.newBatch);
    }
  }

  /** After the server-to-local half, an eligible mirror of a sampled old
      message carries that message's archived state and tags, provided no
      message on the server is accepted under its key (which would replace
      it in the new-message loop). */
  lemma PullRefreshesSample(mailbox: Mailbox, server: Server, store: seq<Mirror>, p: Provider,
                            receive: Receiver, draws: seq<nat>, j: nat, k: nat)
    requires forall a, b :: 0 <= a < b < |store| ==> store[a].key != store[b].key
    requires var olds := Fetch(server, PlanPass(mailbox, server, draws).oldSample);
             && (forall a, b :: 0 <= a < b < |olds| ==> olds[a].uid != olds[b].uid)
             && j < |store| && k < |olds|
             && Eligible(store[j]) && store[j].key == Key(server.uidValidity, olds[k].uid)
    requires forall e :: e in server.messages ==> !AcceptedAs(receive, e, server.uidValidity, store[j].key)
    ensures var olds := Fetch(server, PlanPass(mailbox, server, draws).oldSample);
            var r := Pull(mailbox, server, store, p, receive, draws).store;
            j < |r| && r[j].topic == Topic(IsEmailArchived(olds[k].labels), InboundTags(Some(mailbox.name), olds[k].flags, olds[k].labels, p.toTag))
  {
    var plan := PlanPass(mailbox, server, draws);
    var olds := Fetch(server, plan.oldSample);
    assert olds[k] in olds;
    RefreshOldAppliesMessage(olds, store, server.uidValidity, mailbox.name, p.toTag, j, k);
    PullKeepsRefreshed(mailbox, server, store, p, receive, draws, j);
  }

  /** A mirror no server message is accepted under leaves the server-to-local
      half as the refresh of old messages left it. */
  lemma PullKeepsRefreshed(mailbox: Mailbox, server: Server, store: seq<Mirror>, p: Provider,
                           receive: Receiver, draws: seq<nat>, j: nat)
    requires j < |store|
    requires forall e :: e in server.messages ==> !AcceptedAs(receive, e, server.uidValidity, store[j].key)
    ensures var plan := PlanPass(mailbox, server, draws);
            var refreshed :=
              if plan.oldSample != [] then RefreshOld(Fetch(server, plan.oldSample), store, server.uidValidity, mailbox.name, p.toTag)
              else store;
            Pull(mailbox, server, store, p, receive, draws).store[j] == refreshed[j]
  {
    var plan := PlanPass(mailbox, server, draws);
    var validity := server.uidValidity;
    var refreshed :=
      if plan.oldSample != [] then RefreshOld(Fetch(server, plan.oldSample), store, validity, mailbox.name, p.toTag)
      else store;
    if plan.newBatch != [] {
      var news := Fetch(server, plan.newBatch);
      assert refreshed[j].key == store[j].key;
      IngestNewKeeps(news, plan.lastSeen, refreshed, validity, mailbox.name, p.toTag, receive);
    }
  }

  /** The cursor a pass persists is the UID of the last new message, in batch
      order, that ingestion accepted; when none was accepted it is the cursor
      left by the epoch check. */
  lemma ProcessCursor(mailbox: Mailbox, server: Server, store: seq<Mirror>, settings: Settings,
                      p: Provider, receive: Receiver, draws: seq<nat>)
    ensures var plan := PlanPass(mailbox, server, draws);
            Process(mailbox, server, store, settings, p, receive, draws).mailbox.lastSeenUid
              == LastIngested(Fetch(server, plan.newBatch), server.uidValidity, receive).GetOr(plan.lastSeen)
  {
    var plan := PlanPass(mailbox, server, draws);
    var validity := server.uidValidity;
    var refreshed :=
      if plan.oldSample != [] then RefreshOld(Fetch(server, plan.oldSample), store, validity, mailbox.name, p.toTag)
      else store;
    if plan.newBatch != [] {
      CursorIsLastSuccess(Fetch(server, plan.newBatch), plan.lastSeen, refreshed, validity, mailbox.name, p.toTag, receive);
    } else {
      FilterNone(server.messages, (e: Email) => e.uid in plan.newBatch);
    }
  }

  /** Within one epoch the cursor never moves back. */
  lemma CursorMonotonic(mailbox: Mailbox, server: Server, store: seq<Mirror>, settings: Settings,
                        p: Provider, receive: Receiver, draws: seq<nat>)
    requires server.uidValidity == mailbox.uidValidity
    ensures Process(mailbox, server, store, settings, p, receive, draws).mailbox.lastSeenUid >= mailbox.lastSeenUid
  {
    ProcessCursor(mailbox, server, store, settings, p, receive, draws);
    var plan := PlanPass(mailbox, server, draws);
    var emails := Fetch(server, plan.newBatch);
    var last := LastIngested(emails, server.uidValidity, receive);
    if last.Some? {
      var i :| 0 <= i < |emails| && emails[i].uid == last.value && receive(emails[i], server.uidValidity).Ingested?;
      assert emails[i] in emails;
    }
  }

  /** In a well-formed mailbox two messages with one UID are one message. */
  lemma UidIdentifies(server: Server, a: Email, b: Email)
    requires WellFormed(server)
    requires a in server.messages && b in server.messages
    ensures a.uid == b.uid ==> a == b
  {
    var ia :| 0 <= ia < |server.messages| && server.messages[ia] == a;
    var ib :| 0 <= ib < |server.messages| && server.messages[ib] == b;
    var uids := AllUids(server);
    if ia < ib {
      assert uids[ia] < uids[ib];
    } else if ib < ia {
      assert uids[ib] < uids[ia];
    }
  }

  /** The persisted cursor is never the UID of a new message of this pass
      whose ingestion failed: it names an accepted message or stays where
      the epoch check left it, below every new UID. */
  lemma CursorNeverOnFailure(mailbox: Mailbox, server: Server, store: seq<Mirror>, settings: Settings,
                             p: Provider, receive: Receiver, draws: seq<nat>)
    requires WellFormed(server)
    ensures var plan := PlanPass(mailbox, server, draws);
            var c := Process(mailbox, server, store, settings, p, receive, draws).mailbox.lastSeenUid;
            forall e :: e in Fetch(server, plan.newBatch) && receive(e, server.uidValidity).ProcessingError? ==> e.uid != c
  {
    ProcessCursor(mailbox, server, store, settings, p, receive, draws);
    var plan := PlanPass(mailbox, server, draws);
    BatchCursorNotFailed(server, plan.newBatch, plan.lastSeen, receive);
  }

  /** The cursor after ingesting a batch of UIDs above the starting cursor
      is not the UID of a message in the batch that failed. */
  lemma BatchCursorNotFailed(server: Server, batch: seq<Uid>, lastSeen: nat, receive: Receiver)
    requires WellFormed(server)
    requires forall u :: u in batch ==> lastSeen != 0 ==> u > lastSeen
    ensures var emails := Fetch(server, batch);
            forall e :: e in emails && receive(e, server.uidValidity).ProcessingError? ==>
              e.uid != LastIngested(emails, server.uidValidity, receive).GetOr(lastSeen)
  {
    var emails := Fetch(server, batch);
    var last := LastIngested(emails, server.uidValidity, receive);
    forall e | e in emails && receive(e, server.uidValidity).ProcessingError?
      ensures e.uid != last.GetOr(lastSeen)
    {
      var ie :| 0 <= ie < |server.messages| && server.messages[ie] == e;
      if last.Some? {
        var i :| 0 <= i < |emails| && emails[i].uid == last.value && receive(emails[i], server.uidValidity).Ingested?;
        assert emails[i] in emails;
        UidIdentifies(server, e, emails[i]);
      }
    }
  }

  /** When exactly one UID of the server is accepted by ingestion and that
      message is in the new batch, the cursor ends on it. */
  lemma CursorOnSoleAccepted(mailbox: Mailbox, server: Server, store: seq<Mirror>, settings: Settings,
                             p: Provider, receive: Receiver, draws: seq<nat>, e: Email)
    requires e in server.messages && e.uid in PlanPass(mailbox, server, draws).newBatch
    requires receive(e, server.uidValidity).Ingested?
    requires forall x :: x in server.messages && receive(x, server.uidValidity).Ingested? ==> x.uid == e.uid
    ensures Process(mailbox, server, store, settings, p, receive, draws).mailbox == Mailbox(mailbox.name, server.uidValidity, e.uid)
  {
    ProcessCursor(mailbox, server, store, settings, p, receive, draws);
    var emails := Fetch(server, PlanPass(mailbox, server, draws).newBatch);
    var last := LastIngested(emails, server.uidValidity, receive);
    assert e in emails;
    var k :| 0 <= k < |emails| && emails[k] == e;
    var i :| 0 <= i < |emails| && emails[i].uid == last.value && receive(emails[i], server.uidValidity).Ingested?;
    assert emails[i] in emails;
  }

  /** The example mailbox below with its cursor at 4: UID 6 is the only
      message ingestion accepts, and it is in the new batch. */
  lemma ExampleSoleAccepted(mailbox: Mailbox, server: Server, draws: seq<nat>)
    requires mailbox == Mailbox("INBOX", 7, 4)
    requires server == Server(7, [Email(5, [], [], "a"), Email(6, [], [], "b")])
    ensures var six := server.messages[1];
            && six in server.messages && six.uid in PlanPass(mailbox, server, draws).newBatch
            && RejectFive(six, server.uidValidity).Ingested?
            && forall x :: x in server.messages && RejectFive(x, server.uidValidity).Ingested? ==> x.uid == six.uid
  {
    var uids := AllUids(server);
    assert uids == [5, 6];
    PartitionIsCut(uids, 4);
    assert |PartitionUids(uids, 4).newUids| <= 2;
    assert forall x :: x in server.messages ==> x == server.messages[0] || x == server.messages[1];
  }

  /** The same mailbox with its cursor at 6 has no new batch containing 5. */
  lemma ExampleNextBatch(server: Server, draws: seq<nat>)
    requires server == Server(7, [Email(5, [], [], "a"), Email(6, [], [], "b")])
    ensures 5 !in PlanPass(Mailbox("INBOX", 7, 6), server, draws).newBatch
  {
  }

  /** Ingestion for the example below: it rejects UID 5 and accepts the rest. */
  function RejectFive(e: Email, uidValidity: int): Ingest {
    if e.uid == 5 then ProcessingError else Ingested(Mirror(Key(uidValidity, e.uid), Some(1), false, Topic(false, [])))
  }

  /** A concrete pass over a mailbox whose cursor is at 4 and whose new
      messages are UIDs 5 and 6: ingestion rejects 5 and accepts 6. The
      cursor moves to 6, past the failed message, so the next pass counts 5
      as old and never offers it to ingestion again. */
  lemma FailedMessageIsPassedOver(mailbox: Mailbox, server: Server, store: seq<Mirror>, settings: Settings,
                                  p: Provider, draws: seq<nat>, nextDraws: seq<nat>)
    requires mailbox == Mailbox("INBOX", 7, 4)
    requires server == Server(7, [Email(5, [], [], "a"), Email(6, [], [], "b")])
    ensures var r := Process(mailbox, server, store, settings, p, RejectFive, draws);
            && r.mailbox == Mailbox("INBOX", 7, 6)
            && 5 !in PlanPass(r.mailbox, server, nextDraws).newBatch
  {
    ExampleSoleAccepted(mailbox, server, draws);
    CursorOnSoleAccepted(mailbox, server, store, settings, p, RejectFive, draws, server.messages[1]);
    ExampleNextBatch(server, nextDraws);
  }

  /** With nothing new on the server and nothing pending locally, a pass
      keeps the mailbox record and issues no `store`; only the sampled old
      topics are refreshed. */
  lemma QuietPass(mailbox: Mailbox, server: Server, store: seq<Mirror>, settings: Settings,
                  p: Provider, receive: Receiver, draws: seq<nat>)
    requires server.uidValidity == mailbox.uidValidity
    requires forall e :: e in server.messages ==> e.uid <= mailbox.lastSeenUid
    requires mailbox.lastSeenUid == 0 ==> server.messages == []
    requires forall j :: 0 <= j < |store| ==> !store[j].imapSync
    ensures var r := Process(mailbox, server, store, settings, p, receive, draws);
            r.mailbox == mailbox && r.calls == [] && r.server == server && |r.store| == |store|
  {
    QuietPull(mailbox, server, store, p, receive, draws);
    var pulled := Pull(mailbox, server, store, p, receive, draws);
    NothingPendingPushesNothing(pulled.store, server, settings, p);
  }

  /** Under the same conditions the server-to-local half keeps the cursor,
      adds no mirror and marks none for sync. */
  lemma QuietPull(mailbox: Mailbox, server: Server, store: seq<Mirror>,
                  p: Provider, receive: Receiver, draws: seq<nat>)
    requires server.uidValidity == mailbox.uidValidity
    requires forall e :: e in server.messages ==> e.uid <= mailbox.lastSeenUid
    requires mailbox.lastSeenUid == 0 ==> server.messages == []
    requires forall j :: 0 <= j < |store| ==> !store[j].imapSync
    ensures var pulled := Pull(mailbox, server, store, p, receive, draws);
            && pulled.lastSeen == mailbox.lastSeenUid
            && |pulled.store| == |store|
            && forall j :: 0 <= j < |pulled.store| ==> !pulled.store[j].imapSync
  {
    NothingNewEmptyBatch(mailbox, server, draws);
  }

  /** When no message is above the cursor there is no new batch. */
  lemma NothingNewEmptyBatch(mailbox: Mailbox, server: Server, draws: seq<nat>)
    requires server.uidValidity == mailbox.uidValidity
    requires forall e :: e in server.messages ==> e.uid <= mailbox.lastSeenUid
    requires mailbox.lastSeenUid == 0 ==> server.messages == []
    ensures PlanPass(mailbox, server, draws).newBatch == []
  {
    var uids := AllUids(server);
    forall u | u in uids ensures u < mailbox.lastSeenUid + 1 {
      var i :| 0 <= i < |uids| && uids[i] == u;
      assert server.messages[i] in server.messages;
    }
    var lastSeen := CheckedLastSeen(mailbox, server.uidValidity);
    if lastSeen != 0 {
      NoneFrom(uids, lastSeen + 1);
    }
    assert PartitionUids(uids, lastSeen).newUids == [];
  }

  /** The outbound loop over mirrors none of which is marked for sync
      changes nothing and issues no `store`. */
  lemma {:induction false} NothingPendingPushesNothing(store: seq<Mirror>, server: Server, settings: Settings, p: Provider)
    requires forall j :: 0 <= j < |store| ==> !store[j].imapSync
    ensures PushLocal(store, server, settings, p) == Outbound(store, server, [])
    decreases |store|
  {
    if store != [] {
      NothingPendingPushesNothing(store[1..], server, settings, p);
      assert store == [store[0]] + store[1..];
    }
  }

  /** Unless the site is read-only, a pass pushes exactly the mirrors
      `Pushes` names in the store the server-to-local half leaves, asking the
      server for what `Wanted` lists, and clears their sync marks. */
  lemma ProcessPushes(mailbox: Mailbox, server: Server, store: seq<Mirror>, settings: Settings,
                      p: Provider, receive: Receiver, draws: seq<nat>)
    ensures var pulled := Pull(mailbox, server, store, p, receive, draws).store;
            var r := Process(mailbox, server, store, settings, p, receive, draws);
            !settings.imapReadOnly ==>
              && |r.store| == |pulled|
              && Requests(r.calls) == Wanted(pulled, AllUids(server), settings, p)
              && (forall j :: 0 <= j < |pulled| ==>
                    r.store[j] == if Pushes(settings, pulled[j], AllUids(server)) then pulled[j].(imapSync := false) else pulled[j])
              && AllUids(r.server) == AllUids(server)
  {
    var pulled := Pull(mailbox, server, store, p, receive, draws).store;
    PushLocalPushes(pulled, server, settings, p);
  }

  /** With tagging on and the site not read-only, no first-post mirror whose
      UID number is on the server, in any epoch, is still marked for sync
      after a pass. */
  lemma PassLeavesNothingPending(mailbox: Mailbox, server: Server, store: seq<Mirror>, settings: Settings,
                                 p: Provider, receive: Receiver, draws: seq<nat>)
    requires !settings.imapReadOnly && settings.taggingEnabled && settings.allowStaffToTagPms
    ensures var r := Process(mailbox, server, store, settings, p, receive, draws);
            forall j :: 0 <= j < |r.store| && r.store[j].postNumber == Some(1) && r.store[j].key.uid in AllUids(server)
                        ==> !r.store[j].imapSync
  {
    ProcessPushes(mailbox, server, store, settings, p, receive, draws);
  }
}

=== FILE: types.dfy ===
/** The entities one IMAP synchronisation pass reads and writes: the server's
    view of a mailbox, the local mirror records with their topics, the
    mailbox cursor and the provider's translation functions. */
module Types {

  datatype Option<+T> = None | Some(value: T) {
    function GetOr(default: T): T {
      match this
      case Some(v) => v
      case None => default
    }
  }

  /** IMAP message UID, unique within one UIDVALIDITY epoch. */
  type Uid = nat

  /** A message as the provider returns it from a fetch. `body` is the raw
      RFC822 text; it is empty when the fetch did not ask for it. */
  datatype Email = Email(uid: Uid, flags: seq<string>, labels: seq<string>, body: string)

  /** The part of a local topic that synchronisation reads and writes:
      whether the group archived it, and its tag names. */
  datatype Topic = Topic(archived: bool, tags: seq<string>)

  /** Lookup key of a mirror record: the epoch and the UID it was ingested under. */
  datatype Key = Key(uidValidity: int, uid: Uid)

  /** The local mirror of one ingested message (an incoming email).
      `postNumber` is the number of the post it created, `None` when it
      has no post; `imapSync` marks local changes still to be pushed. */
  datatype Mirror = Mirror(key: Key, postNumber: Option<int>, imapSync: bool, topic: Topic)

  /** The persisted mailbox record and its cursor `(uidValidity, lastSeenUid)`. */
  datatype Mailbox = Mailbox(name: string, uidValidity: int, lastSeenUid: nat)

  /** The remote mailbox: its current epoch and its messages in mailbox order. */
  datatype Server = Server(uidValidity: int, messages: seq<Email>)

  /** Site settings the pass consults. */
  datatype Settings = Settings(imapReadOnly: bool, taggingEnabled: bool, allowStaffToTagPms: bool)

  /** The provider's translation helpers; a blank result means "ignore". */
  datatype Provider = Provider(
    toTag: string -> string,
    tagToFlag: string -> string,
    tagToLabel: string -> string)

  /** What message ingestion reports for one new message. */
  datatype Ingest = Ingested(mirror: Mirror) | ProcessingError

  datatype Field = Flags | Labels

  /** One delta `store` request: the values last fetched and the values wanted. */
  datatype StoreCall = StoreCall(uid: Uid, field: Field, oldValues: seq<string>, newValues: seq<string>)

  function Min(a: int, b: int): int {
    if a <= b then a else b
  }
}

=== FILE: uids.dfy ===
/** UID discovery for one pass: the provider's UID listings, the old/new
    partition around the cursor, and the two per-pass work bounds (a random
    sample of old UIDs and a prefix of new ones). */
module Uids {
  import opened Types
  import opened Seqs

  /** `old_uids.sample(500)`. */
  const OldSampleSize: nat := 500
  /** `new_uids[0..50]`, an inclusive range: 51 UIDs. */
  const NewBatchSize: nat := 51

  /** `uids` with no range: every UID of the mailbox, in mailbox order. */
  function AllUids(server: Server): (r: seq<Uid>)
    ensures |r| == |server.messages|
    ensures forall i :: 0 <= i < |r| ==> r[i] == server.messages[i].uid
  {
    seq(|server.messages|, i requires 0 <= i < |server.messages| => server.messages[i].uid)
  }

  /** What IMAP promises of a mailbox: UIDs are positive and ascend in
      mailbox order. */
  ghost predicate WellFormed(server: Server) {
    && StrictlyIncreasing(AllUids(server))
    && forall i :: 0 <= i < |server.messages| ==> server.messages[i].uid >= 1
  }

  /** `uids(to: n)`: the UIDs up to and including `n`, in order. */
  function UidsTo(uids: seq<Uid>, n: nat): (r: seq<Uid>)
    ensures forall u :: u in r <==> u in uids && u <= n
  {
    Filter(uids, (u: Uid) => u <= n)
  }

  /** `uids(from: n)`: the UIDs from `n` on, in order. */
  function UidsFrom(uids: seq<Uid>, n: nat): (r: seq<Uid>)
    ensures forall u :: u in r <==> u in uids && u >= n
  {
    Filter(uids, (u: Uid) => u >= n)
  }

  datatype Partition = Partition(oldUids: seq<Uid>, newUids: seq<Uid>)

  /** Splits the mailbox's UIDs around the cursor. A cursor of 0 means
      "never synchronised": nothing is old and everything is new. */
  function PartitionUids(uids: seq<Uid>, lastSeen: nat): (r: Partition)
    ensures lastSeen == 0 ==> r.oldUids == [] && r.newUids == uids
    ensures lastSeen != 0 ==> forall u :: u in r.oldUids <==> u in uids && u <= lastSeen
    ensures lastSeen != 0 ==> forall u :: u in r.newUids <==> u in uids && u > lastSeen
    ensures forall u :: u in uids <==> u in r.oldUids || u in r.newUids
    ensures forall u :: u in r.oldUids ==> u !in r.newUids
  {
    if lastSeen == 0 then Partition([], uids)
    else Partition(UidsTo(uids, lastSeen), UidsFrom(uids, lastSeen + 1))
  }

  /** On an ascending UID list the two listings split it in place: every
      old UID comes before every new one, and together they are the list. */
  lemma {:induction false} SplitAscending(uids: seq<Uid>, n: nat)
    requires StrictlyIncreasing(uids)
    ensures UidsTo(uids, n) + UidsFrom(uids, n + 1) == uids
  {
    if uids != [] {
      var tail := uids[1..];
      if uids[0] <= n {
        assert StrictlyIncreasing(tail) by { AscendingTail(uids); }
        SplitAscending(tail, n);
        SplitKeepsHead(uids, n);
      } else {
        assert forall u :: u in tail ==> u > n by { AscendingTail(uids); }
        SplitPastHead(uids, n);
      }
    }
  }

  /** A head at or below `n` goes in front of the old listing. */
  lemma SplitKeepsHead(uids: seq<Uid>, n: nat)
    requires uids != [] && uids[0] <= n
    requires UidsTo(uids[1..], n) + UidsFrom(uids[1..], n + 1) == uids[1..]
    ensures UidsTo(uids, n) + UidsFrom(uids, n + 1) == uids
  {
    var a := UidsTo(uids[1..], n);
    var b := UidsFrom(uids[1..], n + 1);
    assert UidsTo(uids, n) == [uids[0]] + a;
    assert UidsFrom(uids, n + 1) == b;
    assert ([uids[0]] + a) + b == [uids[0]] + (a + b);
    assert uids == [uids[0]] + uids[1..];
  }

  /** A head above `n`, followed only by larger UIDs, leaves the old
      listing empty and the new listing whole. */
  lemma SplitPastHead(uids: seq<Uid>, n: nat)
    requires uids != [] && uids[0] > n
    requires forall u :: u in uids[1..] ==> u > n
    ensures UidsTo(uids, n) + UidsFrom(uids, n + 1) == uids
  {
    NoneTo(uids[1..], n);
    AllFrom(uids[1..], n + 1);
    assert UidsTo(uids, n) == [];
    assert uids == [uids[0]] + uids[1..];
  }

  /** The tail of an ascending list is ascending and lies above its head. */
  lemma AscendingTail(uids: seq<Uid>)
    requires uids != [] && StrictlyIncreasing(uids)
    ensures StrictlyIncreasing(uids[1..])
    ensures forall u :: u in uids[1..] ==> u > uids[0]
  {
    var tail := uids[1..];
    forall i, j | 0 <= i < j < |tail| ensures tail[i] < tail[j] {
      assert tail[i] == uids[i + 1] && tail[j] == uids[j + 1];
    }
    forall u | u in tail ensures u > uids[0] {
      var k :| 0 <= k < |tail| && tail[k] == u;
      assert uids[k + 1] == u;
    }
  }

  lemma {:induction false} NoneTo(uids: seq<Uid>, n: nat)
    requires forall u :: u in uids ==> u > n
    ensures UidsTo(uids, n) == []
  {
    if uids != [] {
      assert uids[0] in uids;
      assert forall u :: u in uids[1..] ==> u in uids;
      NoneTo(uids[1..], n);
    }
  }

  lemma {:induction false} AllFrom(uids: seq<Uid>, n: nat)
    requires forall u :: u in uids ==> u >= n
    ensures UidsFrom(uids, n) == uids
  {
    if uids != [] {
      assert uids[0] in uids;
      assert forall u :: u in uids[1..] ==> u in uids;
      AllFrom(uids[1..], n);
      assert uids == [uids[0]] + uids[1..];
    }
  }

  lemma {:induction false} NoneFrom(uids: seq<Uid>, n: nat)
    requires forall u :: u in uids ==> u < n
    ensures UidsFrom(uids, n) == []
  {
    if uids != [] {
      assert uids[0] in uids;
      assert forall u :: u in uids[1..] ==> u in uids;
      NoneFrom(uids[1..], n);
    }
  }

  /** The partition of an ascending UID list is a cut of it: old UIDs are a
      prefix, new UIDs the rest, and each old UID is below each new one. */
  lemma PartitionIsCut(uids: seq<Uid>, lastSeen: nat)
    requires StrictlyIncreasing(uids)
    ensures PartitionUids(uids, lastSeen).oldUids + PartitionUids(uids, lastSeen).newUids == uids
    ensures var p := PartitionUids(uids, lastSeen);
            forall i, j :: 0 <= i < |p.oldUids| && 0 <= j < |p.newUids| ==> p.oldUids[i] < p.newUids[j]
  {
    var p := PartitionUids(uids, lastSeen);
    if lastSeen != 0 {
      SplitAscending(uids, lastSeen);
      forall i, j | 0 <= i < |p.oldUids| && 0 <= j < |p.newUids|
        ensures p.oldUids[i] < p.newUids[j]
      {
        assert p.oldUids[i] in p.oldUids && p.newUids[j] in p.newUids;
      }
    }
  }

  // ---------------------------------------------------------------------------
  // Bounding the work of one pass

  /** `xs.sample(k)`, with the randomness made explicit: each draw picks,
      modulo the number of UIDs left, the next UID to take out. A missing
      draw counts as 0. The result has `min(k, |xs|)` UIDs, each taken from
      a distinct position of `xs`. */
  function Sample(xs: seq<Uid>, k: nat, draws: seq<nat>): (r: seq<Uid>)
    ensures |r| == Min(k, |xs|)
    ensures multiset(r) <= multiset(xs)
    decreases k
  {
    if k == 0 || |xs| == 0 then []
    else
      var i := Draw(draws, |xs|);
      RemoveAtMultiset(xs, i);
      [xs[i]] + Sample(RemoveAt(xs, i), k - 1, NextDraws(draws))
  }

  /** The position the next draw selects among `n` remaining UIDs. */
  function Draw(draws: seq<nat>, n: nat): (i: nat)
    requires n > 0
    ensures i < n
  {
    (if draws == [] then 0 else draws[0]) % n
  }

  /** A draw already below the number of remaining UIDs selects itself. */
  lemma DrawBelowBound(draws: seq<nat>, n: nat)
    requires draws != [] && draws[0] < n
    ensures Draw(draws, n) == draws[0]
  {
    var d := draws[0];
    assert d == 0 * n + d;
  }

  function NextDraws(draws: seq<nat>): seq<nat> {
    if draws == [] then [] else draws[1..]
  }

  /** `xs` without position `i`. */
  function RemoveAt(xs: seq<Uid>, i: nat): (r: seq<Uid>)
    requires i < |xs|
    ensures |r| == |xs| - 1
    decreases i
  {
    if i == 0 then xs[1..] else [xs[0]] + RemoveAt(xs[1..], i - 1)
  }

  /** Every element of a sample is one of the sampled UIDs. */
  lemma SampleWithin(xs: seq<Uid>, k: nat, draws: seq<nat>)
    ensures forall u :: u in Sample(xs, k, draws) ==> u in xs
  {
    var r := Sample(xs, k, draws);
    forall u | u in r ensures u in xs {
      assert u in multiset(r);
    }
  }

  /** A duplicate-free list holds each value at most once. */
  lemma {:induction false} DistinctMultiplicity(xs: seq<Uid>)
    requires Distinct(xs)
    ensures forall x :: multiset(xs)[x] <= 1
  {
    if xs != [] {
      var t := xs[1..];
      assert xs == [xs[0]] + t;
      assert Distinct(t) by {
        forall a, b | 0 <= a < b < |t| ensures t[a] != t[b] {
          assert t[a] == xs[a + 1] && t[b] == xs[b + 1];
        }
      }
      assert forall a :: 0 <= a < |t| ==> t[a] == xs[a + 1];
      assert xs[0] !in t;
      DistinctMultiplicity(t);
    }
  }

  /** A list that holds each value at most once is duplicate-free. */
  lemma MultiplicityDistinct(xs: seq<Uid>)
    requires forall x :: multiset(xs)[x] <= 1
    ensures Distinct(xs)
  {
    forall a, b | 0 <= a < b < |xs| ensures xs[a] != xs[b] {
      assert xs == xs[..a] + [xs[a]] + xs[a + 1..b] + [xs[b]] + xs[b + 1..];
      assert multiset([xs[a], xs[b]]) <= multiset(xs);
      assert multiset([xs[a], xs[b]])[xs[a]] <= 1;
    }
  }

  /** Sampling distinct UIDs yields distinct UIDs: a set of old UIDs. */
  lemma SampleDistinct(xs: seq<Uid>, k: nat, draws: seq<nat>)
    requires Distinct(xs)
    ensures Distinct(Sample(xs, k, draws))
  {
    var r := Sample(xs, k, draws);
    DistinctMultiplicity(xs);
    assert forall x :: multiset(r)[x] <= multiset(xs)[x];
    MultiplicityDistinct(r);
  }

  lemma {:induction false} RemoveAtMultiset(xs: seq<Uid>, i: nat)
    requires i < |xs|
    ensures multiset(xs) == multiset(RemoveAt(xs, i)) + multiset{xs[i]}
    decreases i
  {
    assert xs == [xs[0]] + xs[1..];
    if i != 0 {
      RemoveAtMultiset(xs[1..], i - 1);
    }
  }

  lemma MultisetCancel(a: Uid, xs: multiset<Uid>, ys: multiset<Uid>)
    requires multiset{a} + xs <= multiset{a} + ys
    ensures xs <= ys
  {
    forall y ensures xs[y] <= ys[y] {
      assert (multiset{a} + xs)[y] <= (multiset{a} + ys)[y];
    }
  }

  /** `r` can be taken out of `xs` one UID at a time, front to back. */
  ghost predicate Drawable(xs: seq<Uid>, r: seq<Uid>)
    decreases |r|
  {
    r == [] || (r[0] in xs && Drawable(RemoveAt(xs, FirstIndex(xs, r[0])), r[1..]))
  }

  /** Any choice of UIDs from distinct positions of `xs` can be drawn. */
  lemma {:induction false} SubMultisetDrawable(xs: seq<Uid>, r: seq<Uid>)
    requires multiset(r) <= multiset(xs)
    ensures Drawable(xs, r)
    decreases |r|
  {
    if r != [] {
      assert r == [r[0]] + r[1..];
      assert r[0] in multiset(xs);
      var i := FirstIndex(xs, r[0]);
      RemoveAtMultiset(xs, i);
      MultisetCancel(r[0], multiset(r[1..]), multiset(RemoveAt(xs, i)));
      SubMultisetDrawable(RemoveAt(xs, i), r[1..]);
    }
  }

  /** The draws under which `Sample` returns `r`. */
  function DrawsFor(xs: seq<Uid>, r: seq<Uid>): seq<nat>
    requires Drawable(xs, r)
    decreases |r|
  {
    if r == [] then []
    else
      var i := FirstIndex(xs, r[0]);
      [i] + DrawsFor(RemoveAt(xs, i), r[1..])
  }

  lemma {:induction false} DrawableSampleReaches(xs: seq<Uid>, k: nat, r: seq<Uid>)
    requires |r| == Min(k, |xs|)
    requires Drawable(xs, r)
    ensures Sample(xs, k, DrawsFor(xs, r)) == r
    decreases |r|
  {
    if r != [] {
      var i := FirstIndex(xs, r[0]);
      var rest := RemoveAt(xs, i);
      var tailDraws := DrawsFor(rest, r[1..]);
      var draws := [i] + tailDraws;
      assert DrawsFor(xs, r) == draws;
      DrawBelowBound(draws, |xs|);
      assert NextDraws(draws) == tailDraws;
      DrawableSampleReaches(rest, k - 1, r[1..]);
      SampleStep(xs, k, draws);
      assert r == [r[0]] + r[1..];
    }
  }

  /** The sample is nondeterministic in exactly the sense of `sample`: every
      choice of `min(k, |xs|)` UIDs from distinct positions of `xs`, in any
      order, is produced by some draws. */
  lemma SampleReachesEvery(xs: seq<Uid>, k: nat, r: seq<Uid>)
    requires |r| == Min(k, |xs|)
    requires multiset(r) <= multiset(xs)
    ensures exists draws :: Sample(xs, k, draws) == r
  {
    SubMultisetDrawable(xs, r);
    DrawableSampleReaches(xs, k, r);
  }

  /** One step of sampling: take the drawn UID out, sample the rest. */
  lemma SampleStep(xs: seq<Uid>, k: nat, draws: seq<nat>)
    requires k > 0 && |xs| > 0
    ensures Sample(xs, k, draws) ==
            [xs[Draw(draws, |xs|)]] + Sample(RemoveAt(xs, Draw(draws, |xs|)), k - 1, NextDraws(draws))
  {
  }

  /** `xs[0..n-1]`: the first `n` UIDs, or all of them when there are fewer. */
  function FirstBatch(xs: seq<Uid>, n: nat): (r: seq<Uid>)
    ensures |r| == Min(n, |xs|)
    ensures r == xs[..|r|]
  {
    if |xs| <= n then xs else xs[..n]
  }

  /** On an ascending list the batch holds the lowest UIDs: every UID left
      for a later pass is above every UID taken now. */
  lemma BatchTakesLowest(xs: seq<Uid>, n: nat)
    requires StrictlyIncreasing(xs)
    ensures var r := FirstBatch(xs, n);
            forall u, v :: u in r && v in xs[|r|..] ==> u < v
  {
    var r := FirstBatch(xs, n);
    forall u, v | u in r && v in xs[|r|..] ensures u < v {
      var a :| 0 <= a < |r| && r[a] == u;
      var b :| 0 <= b < |xs[|r|..]| && xs[|r|..][b] == v;
      assert xs[a] == u && xs[|r| + b] == v;
    }
  }

  /** The new UIDs of an ascending list ascend too. */
  lemma NewUidsAscending(uids: seq<Uid>, lastSeen: nat)
    requires StrictlyIncreasing(uids)
    ensures StrictlyIncreasing(PartitionUids(uids, lastSeen).newUids)
  {
    var part := PartitionUids(uids, lastSeen);
    PartitionIsCut(uids, lastSeen);
    var k := |part.oldUids|;
    forall i, j | 0 <= i < j < |part.newUids| ensures part.newUids[i] < part.newUids[j] {
      assert part.newUids[i] == uids[k + i] && part.newUids[j] == uids[k + j];
    }
  }

  /** The old UIDs a pass refreshes: a sample of `min(500, n)` of the `n`
      UIDs at or below the cursor, none when the cursor is 0. */
  function OldSample(uids: seq<Uid>, lastSeen: nat, draws: seq<nat>): (r: seq<Uid>)
    ensures var seen := PartitionUids(uids, lastSeen).oldUids;
            |r| == Min(OldSampleSize, |seen|) && multiset(r) <= multiset(seen)
    ensures lastSeen == 0 ==> r == []
    ensures forall u :: u in r ==> u in uids && u <= lastSeen
  {
    var seen := PartitionUids(uids, lastSeen).oldUids;
    SampleWithin(seen, OldSampleSize, draws);
    Sample(seen, OldSampleSize, draws)
  }

  /** The new UIDs a pass ingests: the first 51 of those above the cursor,
      the first 51 of all when the cursor is 0. On an ascending list they are
      the lowest new UIDs. */
  function NewBatch(uids: seq<Uid>, lastSeen: nat): (r: seq<Uid>)
    ensures var above := PartitionUids(uids, lastSeen).newUids;
            |r| == Min(NewBatchSize, |above|) && r == above[..|r|]
    ensures StrictlyIncreasing(uids) ==>
            var above := PartitionUids(uids, lastSeen).newUids;
            forall u, v :: u in r && v in above[|r|..] ==> u < v
    ensures lastSeen == 0 ==> r == uids[..Min(NewBatchSize, |uids|)]
    ensures forall u :: u in r ==> u in uids && (lastSeen != 0 ==> u > lastSeen)
  {
    var above := PartitionUids(uids, lastSeen).newUids;
    var r := FirstBatch(above, NewBatchSize);
    assert forall u :: u in r ==> u in above;
    assert StrictlyIncreasing(uids) ==> forall u, v :: u in r && v in above[|r|..] ==> u < v by {
      if StrictlyIncreasing(uids) {
        NewUidsAscending(uids, lastSeen);
        BatchTakesLowest(above, NewBatchSize);
      }
    }
    r
  }
}
